=== FILE: README.md ===
# Applicant–job matching, modelled in Dafny

This project models the core of a Java library that staffs a team. Each team
requirement needs a head-count of members who hold a set of skills. The
library places the applicants and the requirements in a bipartite flow network:

- source → applicant, capacity 1;
- applicant → requirement, capacity 1 when the applicant qualifies;
- requirement → sink, capacity equal to the head-count.

On this network the library does four things:

- it commits known assignments as manual flow edits;
- it runs a max-flow solver;
- it reads the assignments back from the residual graph;
- it decides which roles are "in demand". A role is in demand when it has fewer members than it needs, or when letting each of its members take one more role raises the maximum flow. A role with more members than it needs makes the analysis fail with invalid-state, because committing the extra member finds the role's sink arc full.

The analysis probes the roles in the iteration order of the requirement set. Each probe raises its members' source arcs and restores the flow afterwards. Whether the restore also lowers the raised arcs is up to the flow library, which is not part of this model. The probe's answer is therefore a function of both the members bumped by earlier probes and the members bumped now. If the raised arcs stay, a role's answer can depend on which roles were probed before it (`Scenarios.ExampleProbeSkill1First`, `Scenarios.ExampleProbeSkill2First`). If the restore lowers them, it cannot (`Scenarios.ExampleRestoreUndoesBumps`).

Modules:

- `Outcomes` (outcomes.dfy) — the `Result`/`Outcome` types. Errors are `InvalidArgument` and `InvalidState`, standing for Java's `IllegalArgumentException` and `IllegalStateException`.
- `Applicants` (applicants.dfy) — applicants, team requirements, and the skill-inclusion qualification test.
- `Flow` (flow.dfy) — the residual-capacity network the flow library keeps. It is a map from ordered node pairs to capacities, where an absent pair has capacity 0. It covers pushing flow, successor and predecessor sets, and building the bipartite network generically.
- `TeamNetworks` (teamnetwork.dfy) — the staffing network and its operations. It carries the solver-attached flag and the flow value as explicit state.
- `Analyser` (analyser.dfy) — grouping members by role, and the in-demand decision loop.
- `Scenarios` (scenarios.dfy) — the repository's example networks and analyses, restated as lemmas.

A requirement is compared by object identity in the Java code. Here it is a record with an `id` that stands for that identity.

## Model

| member | source | states |
|---|---|---|
| Applicants.SkillSet | src/main/java/com/denissudak/applicantjobmatching/Applicant.java:27 | The skill set built from a varargs list holds exactly the listed skills, with duplicates collapsed, so it is never larger than the list. |
| Applicants.NewApplicant | src/main/java/com/denissudak/applicantjobmatching/Applicant.java:26-28 | The new applicant keeps the given name and has exactly the listed skills. |
| Applicants.NewTeamRequirement | src/main/java/com/denissudak/applicantjobmatching/TeamRequirement.java:21-23 | The new requirement keeps the head-count and requires exactly the listed skills. |
| Applicants.HasSkills | src/main/java/com/denissudak/applicantjobmatching/Applicant.java:20-24 | An applicant qualifies exactly when every required skill is among its own skills. |
| Applicants.HasNoSkillsRequired | src/main/java/com/denissudak/applicantjobmatching/Applicant.java:23 | Every applicant qualifies for a role that requires no skills. |
| Applicants.HasSkillsMonotone | src/main/java/com/denissudak/applicantjobmatching/Applicant.java:23 | Dropping required skills never disqualifies an applicant. |
| Applicants.NewApplicantQualifies | src/main/java/com/denissudak/applicantjobmatching/Applicant.java:20-28 | An applicant built from a list qualifies for a skill set exactly when every skill in the set is in the list. |
| Flow.Push | src/main/java/com/denissudak/applicantjobmatching/TeamNetwork.java:66-68 | Pushing k units along u → v lowers that residual by k and raises v → u by k. Every other pair is unchanged. |
| Flow.PushBackRestores | src/main/java/com/denissudak/applicantjobmatching/TeamNetwork.java:86 | After a push the reverse residual can take the units back, and pushing them back restores every capacity. |
| Flow.PushKeepsArcs | src/main/java/com/denissudak/applicantjobmatching/TeamNetwork.java:66-68 | A push changes no arc: for every pair of nodes the residual capacities both ways keep their total. |
| Flow.Successors | src/main/java/com/denissudak/applicantjobmatching/TeamNetwork.java:163 | A node is a successor of x exactly when x → node has positive residual capacity. |
| Flow.Predecessors | src/main/java/com/denissudak/applicantjobmatching/TeamNetwork.java:146 | A node is a predecessor of y exactly when node → y has positive residual capacity. |
| Flow.Build | src/main/java/com/denissudak/applicantjobmatching/TeamNetwork.java:118-141 | Building fails with an invalid-argument error exactly when some sink-arc capacity is negative. Otherwise every pair's capacity equals the reference construction `InitialCap`. |
| TeamNetworks.NewTeamNetwork | src/main/java/com/denissudak/applicantjobmatching/TeamNetwork.java:118-141 | Fails with invalid-argument exactly when a head-count is negative. Otherwise: source arcs are 1, sink arcs equal the head-counts, and an applicant → requirement arc is present exactly when the applicant qualifies. Every pair agrees with `TeamCap`, no reverse edge exists, and no solver is attached. |
| TeamNetworks.PathSearch | src/main/java/com/denissudak/applicantjobmatching/TeamNetwork.java:72-79 | The path is [tail, head] when a residual edge tail → head exists, and empty otherwise. |
| TeamNetworks.PushAlongPath | src/main/java/com/denissudak/applicantjobmatching/TeamNetwork.java:81-89 | Each residual changes by the number of path steps reversing it minus the number of steps taking it. |
| TeamNetworks.Commit | src/main/java/com/denissudak/applicantjobmatching/TeamNetwork.java:66-68 | Committing moves one unit along source → applicant → requirement → sink. Every pair changes by the reverse uses minus the forward uses. |
| TeamNetworks.SetFlow | src/main/java/com/denissudak/applicantjobmatching/TeamNetwork.java:53-70 | The solver is attached in every case. The edit succeeds exactly when a residual edge applicant → requirement exists, and then the flow value grows by one and the unit moves. Otherwise it fails with invalid-state and capacities and flow value are unchanged. |
| TeamNetworks.SetFlowAll | src/main/java/com/denissudak/applicantjobmatching/TeamNetwork.java:46-50 | The edits are applied in order and pass exactly when each pair finds its applicant → requirement edge in the state the earlier edits leave (`Accepted` reaches the end). A failure is invalid-state: the edits before the failing pair stay committed, the flow value counts them, and the failing pair has no edge left. On success each pair moves by the units all edits push through it. |
| TeamNetworks.SetFlowBulk | src/main/java/com/denissudak/applicantjobmatching/TeamNetwork.java:41-51 | With a solver already attached it fails with invalid-state and changes nothing. Otherwise it attaches the solver and passes exactly when every assignment finds its edge in turn; a failing run keeps the commits made before the failing pair. |
| TeamNetworks.CommittedAfterOne | src/main/java/com/denissudak/applicantjobmatching/TeamNetwork.java:46-50 | One commit followed by k more leaves what the first k + 1 commits leave from the start. |
| TeamNetworks.GetFlowAmount | src/main/java/com/denissudak/applicantjobmatching/TeamNetwork.java:101-108 | Reading the flow value fails with invalid-state exactly when no solver is attached; otherwise it is the current flow value. |
| TeamNetworks.GetRoleAssignments | src/main/java/com/denissudak/applicantjobmatching/TeamNetwork.java:143-154 | An applicant is read back exactly when it has a residual edge to the source and some requirement reached from the sink has a residual edge to it. It is mapped to that requirement's skills. |
| TeamNetworks.UnitsOnTeamArcs | src/main/java/com/denissudak/applicantjobmatching/TeamNetwork.java:46-50 | A sequence of commits pushes one unit through an applicant's source arc per commit naming the applicant. An applicant → requirement arc is used exactly when that pair is committed, and a requirement's sink arc exactly when some commit names the requirement. Reverse arcs are never used. |
| TeamNetworks.CommitsDistinct | src/main/java/com/denissudak/applicantjobmatching/TeamNetwork.java:129-130 | On a network without flow, a commit sequence whose result is well defined never names an applicant twice, because each source arc carries one unit. |
| TeamNetworks.CommittedEdges | src/main/java/com/denissudak/applicantjobmatching/TeamNetwork.java:66-68 | After commits on a network without flow, each committed pair has residual edges requirement → applicant, sink → requirement and applicant → source. These are the edges the read-back looks for. |
| TeamNetworks.ReverseEdgeIsCommitted | src/main/java/com/denissudak/applicantjobmatching/TeamNetwork.java:145-148 | After commits on a network without flow, a residual edge from a requirement back to an applicant exists only if that pair was committed. So the read-back never invents an assignment. |
| TeamNetworks.ReadBack | src/main/java/com/denissudak/applicantjobmatching/TeamNetwork.java:143-154 | After commits on a network without flow, the read-back is exactly the committed staffing (`RecordsCommits`): no applicant twice, each committed applicant with its requirement's skills, and nobody else. |
| TeamNetworks.ReadBackAfterCommits | src/main/java/com/denissudak/applicantjobmatching/TeamNetwork.java:143-154 | If a sequence of edits on a fresh network succeeds, reading the assignments back yields exactly the committed staffing. |
| TeamNetworks.BulkAfterEditFails | src/main/java/com/denissudak/applicantjobmatching/TeamNetwork.java:43-59 | Any single edit, even a failed one, attaches the solver, so a later bulk commit is refused with invalid-state. |
| TeamNetworks.EditAfterBulkAllowed | src/main/java/com/denissudak/applicantjobmatching/TeamNetwork.java:53-59 | A bulk commit attaches the solver. A single edit afterwards is still accepted whenever the applicant reaches the requirement: only the bulk form refuses an attached solver. |
| TeamNetworks.SetFlowMovesOneUnit | src/main/java/com/denissudak/applicantjobmatching/TeamNetwork.java:66-68 | A successful edit lowers exactly the three forward residuals on source → applicant → requirement → sink by one and raises the three reverse ones by one; no other pair changes. |
| TeamNetworks.SetFlowKeepsArcs | src/main/java/com/denissudak/applicantjobmatching/TeamNetwork.java:53-70 | A single edit, passing or failing, changes no arc of the network: only flow moves. |
| TeamNetworks.SetFlowBulkKeepsArcs | src/main/java/com/denissudak/applicantjobmatching/TeamNetwork.java:41-51 | A bulk commit, including the commits a failing one keeps, changes no arc of the network. |
| TeamNetworks.FlowAmountAfterBulk | src/main/java/com/denissudak/applicantjobmatching/TeamNetwork.java:101-108 | The flow value is unreadable before flow is set. After a successful bulk commit on a new network it equals the number of commits. |
| Analyser.GetTeamRolesAssignment | src/main/java/com/denissudak/applicantjobmatching/TeamRequirementsAnalyser.java:63-81 | Fails with invalid-argument exactly when some member's skill set matches no requirement. Otherwise each member is grouped under exactly the requirement whose skills equal its assigned skills, and no group is empty. |
| Analyser.PutUnderRole | src/main/java/com/denissudak/applicantjobmatching/TeamRequirementsAnalyser.java:66-74 | One member is added under the requirement whose skills match its assignment, when there is one; the other groups are unchanged. |
| Analyser.GroupingIsPartition | src/main/java/com/denissudak/applicantjobmatching/TeamRequirementsAnalyser.java:63-74 | The grouping places every member under exactly one requirement. |
| Analyser.RoleDemand | src/main/java/com/denissudak/applicantjobmatching/TeamRequirementsAnalyser.java:37 | With distinct skill sets, the demand map's keys are exactly the requirements' skill sets, each mapped to its head-count. |
| Analyser.NewAnalysisNetwork | src/main/java/com/denissudak/applicantjobmatching/TeamRequirementsAnalyser.java:34-38 | The probe network is exactly the reference construction `InitialCap` over the team members and the roles' head-counts, with no other arc. So a source arc of 1 exists exactly for the team members, each role's sink arc equals its head-count, and a member → role arc of 1 exists exactly when the member qualifies. A negative head-count makes it fail with invalid-argument. |
| Analyser.BumpedMember | src/main/java/com/denissudak/applicantjobmatching/TeamRequirementsAnalyser.java:43-55 | An applicant is among the members bumped before the role at position i is probed exactly when it is a member of an earlier fully staffed role (`BumpedBefore`). |
| Analyser.CommitMember | src/main/java/com/denissudak/applicantjobmatching/TeamRequirementsAnalyser.java:40 | Committing one member to a role pushes a unit along source → member, member → role and role → sink in turn. It goes through exactly when all three residuals are positive, and then lowers each by one. Otherwise it fails with invalid-state. |
| Analyser.CommitMemberMoves | src/main/java/com/denissudak/applicantjobmatching/TeamRequirementsAnalyser.java:40 | A commit that goes through moves exactly one unit: each pair changes by its reverse uses minus its forward uses on that path. |
| Analyser.RoleFailure | src/main/java/com/denissudak/applicantjobmatching/TeamRequirementsAnalyser.java:40 | A commit that fails while a role's members are committed means some member of that role does not qualify, or the role has more members than its sink arc holds. |
| Analyser.CommitRole | src/main/java/com/denissudak/applicantjobmatching/TeamRequirementsAnalyser.java:40 | Committing one role's members in turn, stopping at the first failure, goes through exactly when all of them qualify and their number fits the role's sink arc. It then lowers that sink arc by the number of members and no other sink arc; a failure is invalid-state. |
| Analyser.CommitMembers | src/main/java/com/denissudak/applicantjobmatching/TeamRequirementsAnalyser.java:40 | Committing every member role by role, stopping at the first failure, goes through exactly when every member qualifies for its role and no role has more members than its head-count. A successful run saturates every member's source arc, uses each member's arc to its role once, and leaves each role's sink arc at its head-count minus its members. |
| Analyser.RolesInDemand | src/main/java/com/denissudak/applicantjobmatching/TeamRequirementsAnalyser.java:30-61 | Errors, in order: duplicate skill sets give invalid-state, a negative head-count gives invalid-argument, an unmatched member gives invalid-argument, and an unqualified member or an over-staffed role gives invalid-state. Otherwise the role at each position of the iteration order is in the result exactly when it is in demand with the earlier probes' bumps in place, every understaffed role is in the result, and the result holds only requirements' skill sets. |
| Analyser.DecideRole | src/main/java/com/denissudak/applicantjobmatching/TeamRequirementsAnalyser.java:43-59 | One loop turn records the role's skill set exactly when the role is in demand at its position, keeps the earlier decisions, and extends the bumps to those of the next position. |
| Analyser.DecideRoles | src/main/java/com/denissudak/applicantjobmatching/TeamRequirementsAnalyser.java:42-60 | The loop returns exactly the skill sets of the roles found in demand at their positions of the iteration order, and only requirements' skill sets. |
| Analyser.DecideOneMore | src/main/java/com/denissudak/applicantjobmatching/TeamRequirementsAnalyser.java:53-57 | Adding one role's decision keeps the decisions already taken, because no two roles share a skill set. |
| Analyser.UnderstaffedRoleInDemand | src/main/java/com/denissudak/applicantjobmatching/TeamRequirementsAnalyser.java:44-57 | A role with fewer members than it needs is in demand, whatever was bumped and whatever the probe reports. |
| Analyser.UnstaffedRoleInDemand | src/main/java/com/denissudak/applicantjobmatching/TeamRequirementsAnalyser.java:56-57 | With nobody on the team, every role that needs someone is in demand. |
| Analyser.BumpsOnlyAddDemand | src/main/java/com/denissudak/applicantjobmatching/TeamRequirementsAnalyser.java:48-55 | When the earlier probes' bumps never lower the flow the probe reports, a role found in demand with nothing bumped before it is found in demand at any position: the earlier bumps can add roles to the result but not remove them. |
| Analyser.FirstProbeAlone | src/main/java/com/denissudak/applicantjobmatching/TeamRequirementsAnalyser.java:43-55 | The first role probed sees no earlier bumps, so its answer is the one it would get on its own. |
| Scenarios.ExampleConstruction | src/test/java/com/denissudak/applicantjobmatching/TeamNetworkTest.java:45-79 | In the three-applicant example network, each source arc is 1. Applicant 1 reaches skills 1 and 2 but not skill 3, applicant 2 reaches skills 1, 2 and 3, and applicant 3 reaches skills 2 and 3 but not skill 1. The sink arcs carry the head-counts 1, 2 and 2. |
| Scenarios.ExampleInvalidEdit | src/test/java/com/denissudak/applicantjobmatching/TeamNetworkTest.java:112-123 | A bulk commit of an applicant to a requirement it does not qualify for fails with invalid-state and changes no capacity. |
| Scenarios.ExampleBulkFirst | src/test/java/com/denissudak/applicantjobmatching/TeamNetworkTest.java:84-91 | The first commit of the bulk example, applicant 1 to the skill-2 requirement, passes and moves one unit through exactly those arcs. |
| Scenarios.ExampleBulkSecond | src/test/java/com/denissudak/applicantjobmatching/TeamNetworkTest.java:84-91 | The second, applicant 2 to the skill-2 requirement, passes and fills that requirement's sink arc. |
| Scenarios.ExampleBulkThird | src/test/java/com/denissudak/applicantjobmatching/TeamNetworkTest.java:84-91 | The third, applicant 3 to the skill-3 requirement, passes. |
| Scenarios.ExampleBulk | src/test/java/com/denissudak/applicantjobmatching/TeamNetworkTest.java:81-103 | The bulk commit of the three assignments passes. Each applicant has a residual edge back to the source, the sink reaches the skill-2 requirement by 2 and the skill-3 one by 1, and each requirement has a residual edge back to its members. |
| Scenarios.ExampleFirstEdit | src/test/java/com/denissudak/applicantjobmatching/TeamNetworkTest.java:131 | From the example's initial arcs, committing applicant 2 to the skill-2 requirement succeeds and moves one unit through exactly those arcs. |
| Scenarios.ExampleSecondEdit | src/test/java/com/denissudak/applicantjobmatching/TeamNetworkTest.java:132 | From there, committing applicant 3 to the skill-3 requirement succeeds too. |
| Scenarios.ExampleEdits | src/test/java/com/denissudak/applicantjobmatching/TeamNetworkTest.java:125-146 | After the two example edits, applicants 2 and 3 have residual edges back to the source and applicant 1 has none. Each skill requirement has one unit on its sink arc and a residual edge back to its member. |
| Scenarios.ExampleEmptyTeam | src/test/java/com/denissudak/applicantjobmatching/TeamRequirementsAnalyserTest.java:38-51 | With an empty team both roles are in demand, in either iteration order and whatever the probe reports. |
| Scenarios.ExampleOneMember | src/test/java/com/denissudak/applicantjobmatching/TeamRequirementsAnalyserTest.java:57-74 | With one member on a one-person role, the understaffed role is in demand. The staffed role is in demand exactly when the probe finds the member could take on more, in either iteration order. |
| Scenarios.ExampleProbeSkill1First | src/main/java/com/denissudak/applicantjobmatching/TeamRequirementsAnalyser.java:43-55 | In a three-role team where only B1 could take a second role, probing the skill-1 role first leaves B1 bumped, and the skill-2 role is then found in demand. |
| Scenarios.ExampleProbeSkill2First | src/main/java/com/denissudak/applicantjobmatching/TeamRequirementsAnalyser.java:43-55 | In the same team, probing the skill-2 role first finds it not in demand. |
| Scenarios.ExampleRestoreUndoesBumps | src/main/java/com/denissudak/applicantjobmatching/TeamRequirementsAnalyser.java:46-55 | If restoring the state also lowers the raised source arcs, the skill-2 role probed after the skill-1 role is not in demand either: the answer of a later probe depends on what the restore does to the bumps. |

## Left out

- The push-relabel max-flow solver and the bipartite `Matching` wrapper belong to external libraries. They are parameters here: `solve` in `PreflowPush`, and `flowAfterBump` in the analyser. `flowAfterBump(bumped, s)` is the flow value the solver reaches from the committed staffing once each member of `s` has its source arc raised by one unit, where `bumped` are the members whose source arcs earlier probes raised.
- ProbeRole: only compares the oracle's value with the committed flow, the number of members, and records the bumped members; what the solver returns after the bump is the `flowAfterBump` parameter, so nothing further can be stated about it. `Analyser.NewAnalysisNetwork` shows that the only source arcs are the members' arcs of capacity 1, and `Analyser.CommitMembers` shows that the committed flow saturates every one of them. That is why the flow read before a probe is the number of members.
- PreflowPush: only records that the solver is attached and that its residual capacities and flow value are adopted. Nothing is stated about what the solver computes, such as maximality, because the solver is not part of this model.
- Restoring the solver state rolls back the flow, so every probe compares against the committed flow value. Whether it also lowers the source arcs that `increaseUCount` raised is decided by the flow library and is not visible in this repository. The model therefore hands the probe oracle both the earlier probes' bumps (`BumpedBefore`, characterised by `BumpedMember`) and the current probe's members. An oracle that ignores the first argument is a restore that undoes the bumps. One that depends only on the union of the two is a restore that keeps them. In that reading a later role's answer, for instance a head-count-0 role with no members probed after a fully staffed role, can differ from its answer on its own. `BumpsOnlyAddDemand` bounds that effect when bumps never lower the flow.
- The iteration order of the requirement set is a parameter, `order`, listing each requirement once. The order of the member map and of the multimap used while grouping does not change any result, because skill sets are distinct.
- In the staffing network (`TeamNetworks`), the flow library's failure when a push exceeds the residual capacity is a precondition (`CanCommit`, `Fits`) rather than an error path. The analyser's commits model that failure as an invalid-state error (`CommitMember`, `CommitMembers`).
- The flow value is the number of committed units. With no solver run it is not recomputed from the network.
- `Analyser.GetTeamRolesAssignment`: requires distinct skill sets. Its only caller has already thrown on duplicates, because TeamRequirementsAnalyser.java line 37 collects the requirements into a map keyed by skill set, so the first match in iteration order is the only match.
- The multimap passed to the bulk `setFlow` is a sequence of (applicant, requirement) pairs. Hash iteration order is not modelled; any order can be given.
- `GetRoleAssignments` skips a node that is neither a requirement nor an applicant node, where the Java code would fail its cast. The case does not arise in a staffing network. Every arc at the source leads to an applicant, so only applicant nodes can have a residual edge into the source. Every arc into the sink comes from a requirement, so the sink reaches only requirement nodes.
- `Flow.Successors` and `Flow.Predecessors`: the flow library is not part of this model. Its successor and predecessor queries are taken to list the nodes joined by positive residual capacity, which is what the repository's tests observe after flow is pushed.
- Null checks (`checkNotNull`, `requireNonNull`) are left out: Dafny values are never null.
- The Lombok-generated accessors, constructors and `setSkills` are left out.
- `ApplicantJobMatching`, the demo driver, is left out.
- Head-counts are unbounded integers, not Java's 32-bit `Integer`. Negative ones are rejected with an invalid-argument error, as the flow library does when an arc capacity is set.
- Object identity of requirements is the `id` field; the Java identity-based hash sets are modelled as sets of records.

=== FILE: analyser.dfy ===
/** Which roles of a team are still in demand, given who is on the team. */
module Analyser {
  import opened Outcomes
  import opened Applicants
  import opened Flow

  /** The current staffing: each team member with the skill set of the role
      it fills. */
  type RoleAssignments = map<Applicant, set<string>>

  /** The staffing grouped by requirement, as a multimap: a requirement with
      no member is absent. */
  type TeamRoles = map<TeamRequirement, set<Applicant>>

  /** No two requirements ask for the same skill set. The analysis keys a
      map by skill set, which fails on a repeated key. */
  predicate DistinctSkills(trs: set<TeamRequirement>)
  {
    forall t1, t2 :: t1 in trs && t2 in trs && t1.skills == t2.skills ==> t1 == t2
  }

  /** The members a multimap lists under `tr`; none when it lists none. */
  function Get(m: TeamRoles, tr: TeamRequirement): set<Applicant>
  {
    if tr in m then m[tr] else {}
  }

  /** Some requirement asks for exactly the skills `a` is assigned. */
  predicate Matched(trs: set<TeamRequirement>, ra: RoleAssignments, a: Applicant)
    requires a in ra
  {
    exists tr :: tr in trs && tr.skills == ra[a]
  }

  /** The team members assigned the skill set `s`. */
  function Assignees(ra: RoleAssignments, s: set<string>): (r: set<Applicant>)
    ensures forall a :: a in r <==> a in ra && ra[a] == s
  {
    set a | a in ra && ra[a] == s
  }

  /** Groups the members by the requirement whose skill set equals the one
      they are assigned; a member no requirement matches is an
      invalid-argument error. */
  method GetTeamRolesAssignment(trs: set<TeamRequirement>, ra: RoleAssignments) returns (r: Result<TeamRoles>)
    requires DistinctSkills(trs)
    ensures r.Failure? <==> exists a :: a in ra && !Matched(trs, ra, a)
    ensures r.Failure? ==> r.error == InvalidArgument
    ensures r.Success? ==> r.value.Keys <= trs
    ensures r.Success? ==> forall tr :: tr in r.value ==> r.value[tr] != {}
    ensures r.Success? ==> forall tr, a :: tr in trs ==> (a in Get(r.value, tr) <==> a in ra && ra[a] == tr.skills)
    ensures r.Success? ==> forall a :: a in ra ==> exists tr :: tr in r.value && a in r.value[tr]
    ensures r.Success? ==> forall a, t1, t2 :: t1 in r.value && t2 in r.value && a in r.value[t1] && a in r.value[t2] ==> t1 == t2
  {
    var m: TeamRoles := map[];
    var rest := ra.Keys;
    ghost var done: set<Applicant> := {};
    while rest != {}
      invariant rest + done == ra.Keys && rest !! done
      invariant forall a :: a in done ==> Matched(trs, ra, a)
      invariant m.Keys <= trs
      invariant forall tr :: tr in m ==> m[tr] != {}
      invariant forall tr, x :: tr in trs ==> (x in Get(m, tr) <==> x in done && ra[x] == tr.skills)
      decreases rest
    {
      var a :| a in rest;
      var matched;
      m, matched := PutUnderRole(trs, ra, m, done, a);
      if !matched {
        assert !Matched(trs, ra, a);
        return Failure(InvalidArgument);
      }
      rest := rest - {a};
      done := done + {a};
    }
    GroupingIsPartition(trs, ra, m);
    r := Success(m);
  }

  /** Walks the requirements until one asks for exactly the skills `a` is
      assigned, and lists `a` under it. */
  method PutUnderRole(trs: set<TeamRequirement>, ra: RoleAssignments, m: TeamRoles, ghost done: set<Applicant>, a: Applicant)
    returns (m': TeamRoles, matched: bool)
    requires a in ra && a !in done && done <= ra.Keys && DistinctSkills(trs)
    requires m.Keys <= trs
    requires forall tr :: tr in m ==> m[tr] != {}
    requires forall tr, x :: tr in trs ==> (x in Get(m, tr) <==> x in done && ra[x] == tr.skills)
    ensures matched <==> Matched(trs, ra, a)
    ensures m'.Keys <= trs
    ensures forall tr :: tr in m' ==> m'[tr] != {}
    ensures forall tr, x :: tr in trs ==>
              (x in Get(m', tr) <==> (x in done || (matched && x == a)) && ra[x] == tr.skills)
  {
    m' := m;
    matched := false;
    var it := trs;
    while !matched && it != {}
      invariant it <= trs
      invariant m'.Keys <= trs
      invariant forall tr :: tr in m' ==> m'[tr] != {}
      invariant !matched ==> forall t :: t in trs - it ==> t.skills != ra[a]
      invariant matched ==> Matched(trs, ra, a)
      invariant forall tr, x :: tr in trs ==>
                  (x in Get(m', tr) <==> (x in done || (matched && x == a)) && ra[x] == tr.skills)
      decreases it
    {
      var tr :| tr in it;
      if ra[a] == tr.skills {
        m' := m'[tr := Get(m', tr) + {a}];
        matched := true;
      }
      it := it - {tr};
    }
  }

  /** A grouping by skill set puts every member under exactly one
      requirement. */
  lemma GroupingIsPartition(trs: set<TeamRequirement>, ra: RoleAssignments, m: TeamRoles)
    requires DistinctSkills(trs) && m.Keys <= trs
    requires forall a :: a in ra ==> Matched(trs, ra, a)
    requires GroupedBySkills(trs, ra, m)
    ensures forall a :: a in ra ==> exists tr :: tr in m && a in m[tr]
    ensures forall a, t1, t2 :: t1 in m && t2 in m && a in m[t1] && a in m[t2] ==> t1 == t2
  {
    forall a | a in ra
      ensures exists tr :: tr in m && a in m[tr]
    {
      assert Matched(trs, ra, a);
      var tr :| tr in trs && tr.skills == ra[a];
      assert a in Get(m, tr);
    }
    forall a, t1, t2 | t1 in m && t2 in m && a in m[t1] && a in m[t2]
      ensures t1 == t2
    {
      assert t1 in trs && t2 in trs;
      assert a in Get(m, t1) && a in Get(m, t2);
      assert ra[a] == t1.skills && ra[a] == t2.skills;
    }
  }

  /** The capacity of each role's arc into the sink, keyed by skill set. */
  function RoleDemand(trs: set<TeamRequirement>): (r: map<set<string>, int>)
    requires DistinctSkills(trs)
    ensures forall s :: s in r <==> exists tr :: tr in trs && tr.skills == s
    ensures forall tr :: tr in trs ==> r[tr.skills] == tr.headCount
  {
    map tr | tr in trs :: tr.skills := tr.headCount
  }

  /** The network the analysis probes: the team members on the U side, the
      roles (skill sets) on the V side, and no arc beyond those of the
      reference construction `InitialCap`. */
  method NewAnalysisNetwork(q: (Applicant, set<string>) -> bool, trs: set<TeamRequirement>, ra: RoleAssignments)
    returns (r: Result<Caps<Applicant, set<string>>>)
    requires DistinctSkills(trs)
    ensures r.Failure? <==> exists tr :: tr in trs && tr.headCount < 0
    ensures r.Failure? ==> r.error == InvalidArgument
    ensures r.Success? ==> forall a :: Cap(r.value, Source, UNode(a)) == (if a in ra then 1 else 0)
    ensures r.Success? ==> forall tr :: tr in trs ==> Cap(r.value, VNode(tr.skills), Sink) == tr.headCount
    ensures r.Success? ==> forall a, tr :: a in ra && tr in trs ==>
                             (Cap(r.value, UNode(a), VNode(tr.skills)) > 0 <==> q(a, tr.skills))
    ensures r.Success? ==> forall x, y :: Cap(r.value, x, y) == InitialCap(q, ra.Keys, RoleDemand(trs), x, y)
  {
    var need := RoleDemand(trs);
    r := Build(q, ra.Keys, need);
    if r.Failure? {
      var s :| s in need && need[s] < 0;
      var tr :| tr in trs && tr.skills == s;
    }
  }

  /** The role of `tr` is in demand when fewer members fill it than it
      needs, or when it is fully staffed and letting each of its members
      take one more role raises the maximum flow above the committed one
      (one unit per member): some member could also fill another role
      without displacing anyone. The maximum flow is not part of this
      model: `flowAfterBump(bumped, s)` is the value the solver reaches from
      the committed staffing once every member of `s` may take one more
      role, `bumped` being the members whose source arcs earlier probes
      raised. Whether restoring the flow after a probe also lowers those
      arcs again is decided by the flow library, which is not part of this
      model: an oracle that ignores `bumped` is a restore that undoes the
      raises, one that depends on `bumped + s` only is a restore that keeps
      them. */
  predicate InDemand(tr: TeamRequirement, ra: RoleAssignments, bumped: set<Applicant>,
                     flowAfterBump: (set<Applicant>, set<Applicant>) -> int)
  {
    var members := Assignees(ra, tr.skills);
    |members| != tr.headCount || flowAfterBump(bumped, members) > |ra|
  }

  /** `order` lists every requirement of `trs` exactly once: the order in
      which the requirement set is iterated. */
  predicate Enumerates(order: seq<TeamRequirement>, trs: set<TeamRequirement>)
  {
    && (forall i :: 0 <= i < |order| ==> order[i] in trs)
    && (forall tr :: tr in trs ==> tr in order)
    && (forall i, j :: 0 <= i < j < |order| ==> order[i] != order[j])
  }

  /** The members whose source arcs the probes of the first `i` roles of
      `order` have raised: those of every fully staffed one among them. */
  function BumpedBefore(order: seq<TeamRequirement>, ra: RoleAssignments, i: nat): set<Applicant>
    requires i <= |order|
  {
    if i == 0 then {}
    else
      var tr := order[i - 1];
      var members := Assignees(ra, tr.skills);
      BumpedBefore(order, ra, i - 1) + (if |members| == tr.headCount then members else {})
  }

  /** `a` is a member of the role at position `j` of `order`, and that role
      is fully staffed. */
  predicate FullyStaffedMember(order: seq<TeamRequirement>, ra: RoleAssignments, j: nat, a: Applicant)
    requires j < |order|
  {
    a in ra && ra[a] == order[j].skills && |Assignees(ra, order[j].skills)| == order[j].headCount
  }

  /** `a` is bumped before position `i` exactly when it is a member of a
      fully staffed role among the first `i`. */
  lemma {:induction false} BumpedMember(order: seq<TeamRequirement>, ra: RoleAssignments, i: nat, a: Applicant)
    requires i <= |order|
    ensures a in BumpedBefore(order, ra, i) <==> exists j :: 0 <= j < i && FullyStaffedMember(order, ra, j, a)
    decreases i
  {
    if i > 0 {
      BumpedMember(order, ra, i - 1, a);
      var tr := order[i - 1];
      var members := Assignees(ra, tr.skills);
      var extra := if |members| == tr.headCount then members else {};
      assert a in BumpedBefore(order, ra, i) <==> a in BumpedBefore(order, ra, i - 1) || a in extra;
      assert a in extra <==> FullyStaffedMember(order, ra, i - 1, a);
      ExistsUpTo(order, ra, i, a);
    }
  }

  /** A fully staffed role among the first `i` is one among the first
      `i - 1` or the one at position `i - 1`. */
  lemma ExistsUpTo(order: seq<TeamRequirement>, ra: RoleAssignments, i: nat, a: Applicant)
    requires 0 < i <= |order|
    ensures (exists j :: 0 <= j < i && FullyStaffedMember(order, ra, j, a)) <==>
            (exists j :: 0 <= j < i - 1 && FullyStaffedMember(order, ra, j, a)) || FullyStaffedMember(order, ra, i - 1, a)
  {
    if exists j :: 0 <= j < i && FullyStaffedMember(order, ra, j, a) {
      var j :| 0 <= j < i && FullyStaffedMember(order, ra, j, a);
      if j < i - 1 {
        assert exists k :: 0 <= k < i - 1 && FullyStaffedMember(order, ra, k, a);
      }
    }
  }

  /** Whether the role at position `i` of `order` is found in demand, the
      probes of the roles before it having raised the source arcs of their
      members. */
  predicate InDemandAt(order: seq<TeamRequirement>, i: nat, ra: RoleAssignments,
                       flowAfterBump: (set<Applicant>, set<Applicant>) -> int)
    requires i < |order|
  {
    InDemand(order[i], ra, BumpedBefore(order, ra, i), flowAfterBump)
  }

  /** Every member qualifies for the role it is assigned. */
  predicate AllQualified(q: (Applicant, set<string>) -> bool, ra: RoleAssignments)
  {
    forall a :: a in ra ==> q(a, ra[a])
  }

  /** No role has more members than its head-count. */
  predicate WithinHeadCounts(trs: set<TeamRequirement>, ra: RoleAssignments)
  {
    forall tr :: tr in trs ==> |Assignees(ra, tr.skills)| <= tr.headCount
  }

  /** The residual capacities of the network the analysis probes. */
  type AnalysisCaps = Caps<Applicant, set<string>>

  /** Commits one unit for member `a` in the role with skill set `s`: one
      push along source -> a, one along a -> s and one along s -> sink. A
      push that finds no residual capacity fails with invalid-state; on
      success each of the three arcs carries one more unit. */
  function CommitMember(c: AnalysisCaps, a: Applicant, s: set<string>): (r: Result<AnalysisCaps>)
    ensures r.Success? <==> Cap(c, Source, UNode(a)) > 0 && Cap(c, UNode(a), VNode(s)) > 0 && Cap(c, VNode(s), Sink) > 0
    ensures r.Failure? ==> r.error == InvalidState
    ensures r.Success? ==> && Cap(r.value, Source, UNode(a)) + 1 == Cap(c, Source, UNode(a))
                           && Cap(r.value, UNode(a), VNode(s)) + 1 == Cap(c, UNode(a), VNode(s))
                           && Cap(r.value, VNode(s), Sink) + 1 == Cap(c, VNode(s), Sink)
  {
    if Cap(c, Source, UNode(a)) == 0 then Failure(InvalidState)
    else
      var c1 := Push(c, 1, Source, UNode(a));
      if Cap(c1, UNode(a), VNode(s)) == 0 then Failure(InvalidState)
      else
        var c2 := Push(c1, 1, UNode(a), VNode(s));
        if Cap(c2, VNode(s), Sink) == 0 then Failure(InvalidState)
        else Success(Push(c2, 1, VNode(s), Sink))
  }

  /** A successful member commit moves one unit along each of its three
      arcs and nothing else: every pair changes by the reverse uses minus
      the forward uses, as a commit in the staffing network does. */
  lemma CommitMemberMoves(c: AnalysisCaps, a: Applicant, s: set<string>)
    requires CommitMember(c, a, s).Success?
    ensures forall x, y :: Cap(CommitMember(c, a, s).value, x, y) == Cap(c, x, y) - Uses(a, s, x, y) + Uses(a, s, y, x)
  {
    var c1 := Push(c, 1, Source, UNode(a));
    var c2 := Push(c1, 1, UNode(a), VNode(s));
    var c3 := Push(c2, 1, VNode(s), Sink);
    assert CommitMember(c, a, s).value == c3;
    forall x, y
      ensures Cap(c3, x, y) == Cap(c, x, y) - Uses(a, s, x, y) + Uses(a, s, y, x)
    {
    }
  }

  /** The members of `ra` outside `done` have their source arc and their
      arcs to the roles as in `caps`. */
  ghost predicate Untouched(ra: RoleAssignments, caps: AnalysisCaps, c: AnalysisCaps, done: set<Applicant>)
  {
    && (forall a :: a in ra && a !in done ==> Cap(c, Source, UNode(a)) == Cap(caps, Source, UNode(a)))
    && (forall a, s :: a in ra && a !in done ==> Cap(c, UNode(a), VNode(s)) == Cap(caps, UNode(a), VNode(s)))
  }

  /** The members of `ra` in `done` have each used their source arc and
      their arc to their own role once. */
  ghost predicate Used(ra: RoleAssignments, caps: AnalysisCaps, c: AnalysisCaps, done: set<Applicant>)
  {
    && (forall a :: a in ra && a in done ==> Cap(c, Source, UNode(a)) + 1 == Cap(caps, Source, UNode(a)))
    && (forall a :: a in ra && a in done ==> Cap(c, UNode(a), VNode(ra[a])) + 1 == Cap(caps, UNode(a), VNode(ra[a])))
  }

  /** `c` is `caps` with exactly the members in `done` committed. */
  ghost predicate MembersCommitted(ra: RoleAssignments, caps: AnalysisCaps, c: AnalysisCaps, done: set<Applicant>)
  {
    Untouched(ra, caps, c, done) && Used(ra, caps, c, done)
  }

  /** One more member committed to its own role leaves the others
      untouched. */
  lemma UntouchedStep(ra: RoleAssignments, caps: AnalysisCaps, c: AnalysisCaps, done: set<Applicant>,
                      a: Applicant, c': AnalysisCaps)
    requires a in ra && a !in done
    requires Untouched(ra, caps, c, done)
    requires forall x, y :: Cap(c', x, y) == Cap(c, x, y) - Uses(a, ra[a], x, y) + Uses(a, ra[a], y, x)
    ensures Untouched(ra, caps, c', done + {a})
  {
    forall b | b in ra && b !in done + {a}
      ensures Cap(c', Source, UNode(b)) == Cap(caps, Source, UNode(b))
    {
      assert Cap(c', Source, UNode(b)) == Cap(c, Source, UNode(b));
    }
    forall b, s | b in ra && b !in done + {a}
      ensures Cap(c', UNode(b), VNode(s)) == Cap(caps, UNode(b), VNode(s))
    {
      assert Cap(c', UNode(b), VNode(s)) == Cap(c, UNode(b), VNode(s));
    }
  }

  /** One more member committed to its own role has used its arcs once,
      and the members committed before keep theirs. */
  lemma UsedStep(ra: RoleAssignments, caps: AnalysisCaps, c: AnalysisCaps, done: set<Applicant>,
                 a: Applicant, c': AnalysisCaps)
    requires a in ra && a !in done
    requires Untouched(ra, caps, c, done) && Used(ra, caps, c, done)
    requires forall x, y :: Cap(c', x, y) == Cap(c, x, y) - Uses(a, ra[a], x, y) + Uses(a, ra[a], y, x)
    ensures Used(ra, caps, c', done + {a})
  {
    forall b | b in ra && b in done + {a}
      ensures Cap(c', Source, UNode(b)) + 1 == Cap(caps, Source, UNode(b))
    {
      assert Cap(c', Source, UNode(b)) + (if b == a then 1 else 0) == Cap(c, Source, UNode(b));
    }
    forall b | b in ra && b in done + {a}
      ensures Cap(c', UNode(b), VNode(ra[b])) + 1 == Cap(caps, UNode(b), VNode(ra[b]))
    {
      assert Cap(c', UNode(b), VNode(ra[b])) + (if b == a then 1 else 0) == Cap(c, UNode(b), VNode(ra[b]));
    }
  }

  /** Committing one more member to its own role extends the committed set
      by that member, and leaves every other role's sink arc alone. */
  lemma CommitMemberStep(ra: RoleAssignments, caps: AnalysisCaps, c: AnalysisCaps, done: set<Applicant>,
                         a: Applicant, c': AnalysisCaps)
    requires a in ra && a !in done
    requires MembersCommitted(ra, caps, c, done)
    requires forall x, y :: Cap(c', x, y) == Cap(c, x, y) - Uses(a, ra[a], x, y) + Uses(a, ra[a], y, x)
    ensures MembersCommitted(ra, caps, c', done + {a})
    ensures forall s :: s != ra[a] ==> Cap(c', VNode(s), Sink) == Cap(c, VNode(s), Sink)
  {
    UntouchedStep(ra, caps, c, done, a, c');
    UsedStep(ra, caps, c, done, a, c');
  }

  /** Moving one element from the part still to visit to the visited part
      keeps the two a partition of the whole. */
  lemma MoveOne<T>(rest: set<T>, done: set<T>, x: T, whole: set<T>)
    requires rest + done == whole && rest !! done && x in rest
    ensures (rest - {x}) + (done + {x}) == whole && (rest - {x}) !! (done + {x})
  {
  }

  /** A subset that misses an element of the whole is smaller than it. */
  lemma SubsetMissingOne<T>(sub: set<T>, whole: set<T>, x: T)
    requires sub <= whole && x in whole && x !in sub
    ensures |sub| < |whole|
  {
    assert whole == sub + (whole - sub);
    assert x in whole - sub;
  }

  /** The members of role `tr` in `doneG` are committed in `cur`, starting
      from `c` with `done` committed: they all qualify, the role's sink arc
      carries their units and no other sink arc changed. */
  ghost predicate RoleProgress(ra: RoleAssignments, q: (Applicant, set<string>) -> bool, caps: AnalysisCaps,
                               c: AnalysisCaps, cur: AnalysisCaps, done: set<Applicant>, tr: TeamRequirement,
                               doneG: set<Applicant>)
  {
    && (forall a :: a in doneG ==> q(a, tr.skills))
    && Cap(cur, VNode(tr.skills), Sink) + |doneG| == Cap(c, VNode(tr.skills), Sink)
    && (forall s :: s != tr.skills ==> Cap(cur, VNode(s), Sink) == Cap(c, VNode(s), Sink))
    && MembersCommitted(ra, caps, cur, done + doneG)
  }

  /** The facts about one role's members that its commits rely on. */
  ghost predicate RoleMembers(ra: RoleAssignments, q: (Applicant, set<string>) -> bool, caps: AnalysisCaps,
                              done: set<Applicant>, tr: TeamRequirement, members: set<Applicant>)
  {
    && members <= ra.Keys && members !! done
    && (forall a :: a in members ==> ra[a] == tr.skills)
    && (forall a :: a in members ==> (Cap(caps, UNode(a), VNode(tr.skills)) > 0 <==> q(a, tr.skills)))
    && (forall a :: a in members ==> Cap(caps, Source, UNode(a)) == 1)
  }

  /** A member commit that goes through keeps the role's progress. */
  lemma RoleStep(ra: RoleAssignments, q: (Applicant, set<string>) -> bool, caps: AnalysisCaps,
                 c: AnalysisCaps, cur: AnalysisCaps, done: set<Applicant>, tr: TeamRequirement,
                 members: set<Applicant>, doneG: set<Applicant>, a: Applicant, next: AnalysisCaps)
    requires RoleMembers(ra, q, caps, done, tr, members)
    requires doneG <= members && a in members && a !in doneG
    requires RoleProgress(ra, q, caps, c, cur, done, tr, doneG)
    requires Cap(cur, UNode(a), VNode(tr.skills)) > 0
    requires forall x, y :: Cap(next, x, y) == Cap(cur, x, y) - Uses(a, tr.skills, x, y) + Uses(a, tr.skills, y, x)
    ensures RoleProgress(ra, q, caps, c, next, done, tr, doneG + {a})
  {
    assert a !in done + doneG;
    assert q(a, tr.skills) by {
      assert Cap(caps, UNode(a), VNode(tr.skills)) == Cap(cur, UNode(a), VNode(tr.skills));
    }
    CommitMemberStep(ra, caps, cur, done + doneG, a, next);
    assert done + doneG + {a} == done + (doneG + {a});
    assert Cap(next, VNode(tr.skills), Sink) + 1 == Cap(cur, VNode(tr.skills), Sink);
    assert |doneG + {a}| == |doneG| + 1;
  }

  /** A member commit that fails shows a member that does not qualify, or
      more members than the role's sink arc had room for. */
  lemma RoleFailure(ra: RoleAssignments, q: (Applicant, set<string>) -> bool, caps: AnalysisCaps,
                    c: AnalysisCaps, cur: AnalysisCaps, done: set<Applicant>, tr: TeamRequirement,
                    members: set<Applicant>, doneG: set<Applicant>, a: Applicant)
    requires RoleMembers(ra, q, caps, done, tr, members)
    requires doneG <= members && a in members && a !in doneG
    requires RoleProgress(ra, q, caps, c, cur, done, tr, doneG)
    requires CommitMember(cur, a, tr.skills).Failure?
    ensures !((forall b :: b in members ==> q(b, tr.skills)) && |members| <= Cap(c, VNode(tr.skills), Sink))
  {
    assert a !in done + doneG;
    if Cap(cur, UNode(a), VNode(tr.skills)) == 0 {
      assert Cap(caps, UNode(a), VNode(tr.skills)) == 0;
    } else {
      assert Cap(cur, Source, UNode(a)) == 1;
      assert Cap(cur, VNode(tr.skills), Sink) == 0;
      SubsetMissingOne(doneG, members, a);
    }
  }

  /** Commits the members of one role in turn, stopping at the first commit
      that fails. The run goes through exactly when every member qualifies
      for the role and the role's sink arc has room for all of them; it
      then lowers that sink arc by the number of members and no other. */
  method CommitRole(ra: RoleAssignments, q: (Applicant, set<string>) -> bool, caps: AnalysisCaps,
                    c: AnalysisCaps, ghost done: set<Applicant>, tr: TeamRequirement, members: set<Applicant>)
    returns (r: Result<AnalysisCaps>)
    requires RoleMembers(ra, q, caps, done, tr, members)
    requires MembersCommitted(ra, caps, c, done)
    ensures r.Success? <==> (forall a :: a in members ==> q(a, tr.skills)) && |members| <= Cap(c, VNode(tr.skills), Sink)
    ensures r.Failure? ==> r.error == InvalidState
    ensures r.Success? ==> RoleProgress(ra, q, caps, c, r.value, done, tr, members)
  {
    var cur := c;
    var rest := members;
    ghost var doneG: set<Applicant> := {};
    assert done + doneG == done;
    while rest != {}
      invariant rest + doneG == members && rest !! doneG
      invariant RoleProgress(ra, q, caps, c, cur, done, tr, doneG)
      decreases rest
    {
      var a :| a in rest;
      var step := CommitMember(cur, a, tr.skills);
      if step.Failure? {
        RoleFailure(ra, q, caps, c, cur, done, tr, members, doneG, a);
        return Failure(InvalidState);
      }
      CommitMemberMoves(cur, a, tr.skills);
      RoleStep(ra, q, caps, c, cur, done, tr, members, doneG, a, step.value);
      MoveOne(rest, doneG, a, members);
      cur := step.value;
      rest := rest - {a};
      doneG := doneG + {a};
    }
    return Success(cur);
  }

  /** What the commit phase needs of the probe network and the grouping:
      distinct skill sets, every member grouped under the requirement with
      its skills, a source arc of 1 per member, a member arc exactly where
      the qualification holds, and sink arcs equal to the head-counts. */
  ghost predicate CommitSetup(trs: set<TeamRequirement>, ra: RoleAssignments, m: TeamRoles,
                              q: (Applicant, set<string>) -> bool, caps: AnalysisCaps)
  {
    && DistinctSkills(trs) && m.Keys <= trs && GroupedBySkills(trs, ra, m)
    && (forall a :: a in ra ==> Matched(trs, ra, a))
    && (forall a :: a in ra ==> Cap(caps, Source, UNode(a)) == 1)
    && (forall a, tr :: a in ra && tr in trs ==> (Cap(caps, UNode(a), VNode(tr.skills)) > 0 <==> q(a, tr.skills)))
    && (forall tr :: tr in trs ==> Cap(caps, VNode(tr.skills), Sink) == tr.headCount)
  }

  /** A member is in `done` exactly when its role is in `doneR`. */
  ghost predicate RolesPartitioned(m: TeamRoles, doneR: set<TeamRequirement>, done: set<Applicant>)
  {
    forall t, a :: t in m && a in m[t] ==> (a in done <==> t in doneR)
  }

  /** Each role in `doneR` has its members' units on its sink arc; every
      other role's sink arc is as built. */
  ghost predicate RoleSinks(trs: set<TeamRequirement>, m: TeamRoles, c: AnalysisCaps, doneR: set<TeamRequirement>)
    requires doneR <= m.Keys
  {
    && (forall t :: t in doneR ==> Cap(c, VNode(t.skills), Sink) + |m[t]| == t.headCount)
    && (forall t :: t in trs && t !in doneR ==> Cap(c, VNode(t.skills), Sink) == t.headCount)
  }

  /** Every member of a role in `doneR` qualifies for it. */
  ghost predicate RolesQualified(m: TeamRoles, q: (Applicant, set<string>) -> bool, doneR: set<TeamRequirement>)
  {
    forall t, a :: t in doneR && t in m && a in m[t] ==> q(a, t.skills)
  }

  /** The roles in `doneR` are committed in `c`, and with them exactly their
      members `done`: each such role has its members' units on its sink arc
      and all its members qualify; every other role's sink arc is as
      built. */
  ghost predicate CommitProgress(trs: set<TeamRequirement>, ra: RoleAssignments, m: TeamRoles,
                                 q: (Applicant, set<string>) -> bool, caps: AnalysisCaps, c: AnalysisCaps,
                                 doneR: set<TeamRequirement>, done: set<Applicant>)
  {
    && doneR <= m.Keys && done <= ra.Keys
    && RolesPartitioned(m, doneR, done)
    && MembersCommitted(ra, caps, c, done)
    && RoleSinks(trs, m, c, doneR)
    && RolesQualified(m, q, doneR)
  }

  /** The members of a role not yet committed meet what its commits rely
      on. */
  lemma RoleReady(trs: set<TeamRequirement>, ra: RoleAssignments, m: TeamRoles, q: (Applicant, set<string>) -> bool,
                  caps: AnalysisCaps, c: AnalysisCaps, doneR: set<TeamRequirement>, done: set<Applicant>,
                  tr: TeamRequirement)
    requires CommitSetup(trs, ra, m, q, caps)
    requires CommitProgress(trs, ra, m, q, caps, c, doneR, done)
    requires tr in m && tr !in doneR
    ensures RoleMembers(ra, q, caps, done, tr, m[tr])
  {
    forall a | a in m[tr]
      ensures a in ra && ra[a] == tr.skills
    {
      assert a in Get(m, tr);
    }
  }

  /** A member is listed under one requirement only. */
  lemma OneGroupEach(trs: set<TeamRequirement>, ra: RoleAssignments, m: TeamRoles,
                     t: TeamRequirement, tr: TeamRequirement, a: Applicant)
    requires DistinctSkills(trs) && m.Keys <= trs && GroupedBySkills(trs, ra, m)
    requires t in m && tr in m && a in m[t]
    ensures a in m[tr] ==> t == tr
  {
    assert t in trs && tr in trs;
    assert a in Get(m, t) && ra[a] == t.skills;
    if a in m[tr] {
      assert a in Get(m, tr) && ra[a] == tr.skills;
    }
  }

  /** After committing role `tr`, a member is committed exactly when its
      role is. */
  lemma RolesStepPartition(trs: set<TeamRequirement>, ra: RoleAssignments, m: TeamRoles,
                           doneR: set<TeamRequirement>, done: set<Applicant>, tr: TeamRequirement)
    requires DistinctSkills(trs) && m.Keys <= trs && GroupedBySkills(trs, ra, m)
    requires RolesPartitioned(m, doneR, done)
    requires tr in m && tr !in doneR
    ensures RolesPartitioned(m, doneR + {tr}, done + m[tr])
  {
    forall t, a | t in m && a in m[t]
      ensures a in done + m[tr] <==> t in doneR + {tr}
    {
      OneGroupEach(trs, ra, m, t, tr, a);
    }
  }

  /** After committing role `tr`, its sink arc carries its members' units,
      and every other role's sink arc is as before. */
  lemma RolesStepSinks(trs: set<TeamRequirement>, m: TeamRoles, c: AnalysisCaps, c': AnalysisCaps,
                       doneR: set<TeamRequirement>, tr: TeamRequirement)
    requires DistinctSkills(trs) && m.Keys <= trs && doneR <= m.Keys
    requires RoleSinks(trs, m, c, doneR)
    requires tr in m && tr !in doneR
    requires Cap(c', VNode(tr.skills), Sink) + |m[tr]| == Cap(c, VNode(tr.skills), Sink)
    requires forall s :: s != tr.skills ==> Cap(c', VNode(s), Sink) == Cap(c, VNode(s), Sink)
    ensures RoleSinks(trs, m, c', doneR + {tr})
  {
    forall t | t in doneR + {tr}
      ensures Cap(c', VNode(t.skills), Sink) + |m[t]| == t.headCount
    {
      if t != tr {
        assert t.skills != tr.skills;
      }
    }
    forall t | t in trs && t !in doneR + {tr}
      ensures Cap(c', VNode(t.skills), Sink) == t.headCount
    {
      assert t.skills != tr.skills;
    }
  }

  /** Committing one more role, all of whose members went through, keeps
      the progress of the commit phase. */
  lemma RolesStep(trs: set<TeamRequirement>, ra: RoleAssignments, m: TeamRoles, q: (Applicant, set<string>) -> bool,
                  caps: AnalysisCaps, c: AnalysisCaps, doneR: set<TeamRequirement>, done: set<Applicant>,
                  tr: TeamRequirement, c': AnalysisCaps)
    requires DistinctSkills(trs) && m.Keys <= trs && GroupedBySkills(trs, ra, m)
    requires CommitProgress(trs, ra, m, q, caps, c, doneR, done)
    requires tr in m && tr !in doneR && m[tr] <= ra.Keys
    requires (forall a :: a in m[tr] ==> q(a, tr.skills)) && RoleProgress(ra, q, caps, c, c', done, tr, m[tr])
    ensures CommitProgress(trs, ra, m, q, caps, c', doneR + {tr}, done + m[tr])
  {
    RolesStepPartition(trs, ra, m, doneR, done, tr);
    RolesStepSinks(trs, m, c, c', doneR, tr);
  }

  /** A role whose commits fail has a member that does not qualify or more
      members than its head-count. */
  lemma RolesFailure(trs: set<TeamRequirement>, ra: RoleAssignments, m: TeamRoles, q: (Applicant, set<string>) -> bool,
                     caps: AnalysisCaps, c: AnalysisCaps, doneR: set<TeamRequirement>, done: set<Applicant>,
                     tr: TeamRequirement)
    requires CommitSetup(trs, ra, m, q, caps)
    requires CommitProgress(trs, ra, m, q, caps, c, doneR, done)
    requires tr in m && tr !in doneR
    requires !((forall a :: a in m[tr] ==> q(a, tr.skills)) && |m[tr]| <= Cap(c, VNode(tr.skills), Sink))
    ensures !(AllQualified(q, ra) && WithinHeadCounts(trs, ra))
  {
    GroupIsAssignees(trs, ra, m, tr);
    if forall a :: a in m[tr] ==> q(a, tr.skills) {
      assert |Assignees(ra, tr.skills)| > tr.headCount;
    } else {
      var a :| a in m[tr] && !q(a, tr.skills);
      assert a in Get(m, tr);
      assert a in ra && !q(a, ra[a]);
    }
  }

  /** Once every role is committed, every member qualifies, no role is
      over-staffed, and the arcs carry the whole staffing. */
  lemma RolesComplete(trs: set<TeamRequirement>, ra: RoleAssignments, m: TeamRoles, q: (Applicant, set<string>) -> bool,
                      caps: AnalysisCaps, c: AnalysisCaps, done: set<Applicant>)
    requires CommitSetup(trs, ra, m, q, caps)
    requires CommitProgress(trs, ra, m, q, caps, c, m.Keys, done)
    ensures AllQualified(q, ra) && WithinHeadCounts(trs, ra)
    ensures forall a :: a in ra ==> Cap(c, Source, UNode(a)) == 0
    ensures forall a :: a in ra ==> Cap(c, UNode(a), VNode(ra[a])) + 1 == Cap(caps, UNode(a), VNode(ra[a]))
    ensures forall tr :: tr in trs ==> Cap(c, VNode(tr.skills), Sink) + |Assignees(ra, tr.skills)| == tr.headCount
  {
    forall a | a in ra
      ensures a in done && q(a, ra[a])
    {
      var t :| t in trs && t.skills == ra[a];
      assert a in Get(m, t);
    }
    forall t | t in trs
      ensures Cap(c, VNode(t.skills), Sink) + |Assignees(ra, t.skills)| == t.headCount
    {
      GroupIsAssignees(trs, ra, m, t);
    }
  }

  /** Commits every member to its role, role by role in the multimap's
      iteration order, stopping at the first commit that fails. The run
      goes through exactly when every member qualifies for its role and no
      role has more members than its head-count: a commit fails when the
      member has no arc to its role, or when the role's sink arc is full.
      A successful run leaves every member's source arc carrying its unit,
      its arc to its role one unit lower, and each role's sink arc lowered
      by the role's members. */
  method CommitMembers(trs: set<TeamRequirement>, ra: RoleAssignments, m: TeamRoles,
                       q: (Applicant, set<string>) -> bool, caps: AnalysisCaps)
    returns (r: Result<AnalysisCaps>)
    requires CommitSetup(trs, ra, m, q, caps)
    ensures r.Success? <==> AllQualified(q, ra) && WithinHeadCounts(trs, ra)
    ensures r.Failure? ==> r.error == InvalidState
    ensures r.Success? ==> forall a :: a in ra ==> Cap(r.value, Source, UNode(a)) == 0
    ensures r.Success? ==> forall a :: a in ra ==> Cap(r.value, UNode(a), VNode(ra[a])) + 1 == Cap(caps, UNode(a), VNode(ra[a]))
    ensures r.Success? ==> forall tr :: tr in trs ==> Cap(r.value, VNode(tr.skills), Sink) + |Assignees(ra, tr.skills)| == tr.headCount
  {
    var c := caps;
    var restR := m.Keys;
    ghost var doneR: set<TeamRequirement> := {};
    ghost var done: set<Applicant> := {};
    while restR != {}
      invariant restR + doneR == m.Keys && restR !! doneR
      invariant CommitProgress(trs, ra, m, q, caps, c, doneR, done)
      decreases restR
    {
      var tr :| tr in restR;
      RoleReady(trs, ra, m, q, caps, c, doneR, done, tr);
      var step := CommitRole(ra, q, caps, c, done, tr, m[tr]);
      if step.Failure? {
        RolesFailure(trs, ra, m, q, caps, c, doneR, done, tr);
        return Failure(InvalidState);
      }
      RolesStep(trs, ra, m, q, caps, c, doneR, done, tr, step.value);
      MoveOne(restR, doneR, tr, m.Keys);
      c := step.value;
      restR := restR - {tr};
      doneR := doneR + {tr};
      done := done + m[tr];
    }
    RolesComplete(trs, ra, m, q, caps, c, done);
    return Success(c);
  }

  /** Computes the skill sets of the roles in demand, deciding the roles in
      the iteration order `order` of the requirement set. The committed
      flow is restored after every probe; each probe is told which members
      the probes before it bumped. */
  method RolesInDemand(trs: set<TeamRequirement>, ra: RoleAssignments, q: (Applicant, set<string>) -> bool,
                       flowAfterBump: (set<Applicant>, set<Applicant>) -> int, order: seq<TeamRequirement>)
    returns (r: Result<set<set<string>>>)
    requires Enumerates(order, trs)
    ensures !DistinctSkills(trs) ==> r == Failure(InvalidState)
    ensures DistinctSkills(trs) && (exists tr :: tr in trs && tr.headCount < 0) ==> r == Failure(InvalidArgument)
    ensures (&& DistinctSkills(trs)
             && (forall tr :: tr in trs ==> tr.headCount >= 0)
             && (exists a :: a in ra && !Matched(trs, ra, a)))
            ==> r == Failure(InvalidArgument)
    ensures (&& DistinctSkills(trs)
             && (forall tr :: tr in trs ==> tr.headCount >= 0)
             && (forall a :: a in ra ==> Matched(trs, ra, a))
             && !(AllQualified(q, ra) && WithinHeadCounts(trs, ra)))
            ==> r == Failure(InvalidState)
    ensures r.Success? <==>
              && DistinctSkills(trs)
              && (forall tr :: tr in trs ==> tr.headCount >= 0)
              && (forall a :: a in ra ==> Matched(trs, ra, a))
              && AllQualified(q, ra)
              && WithinHeadCounts(trs, ra)
    ensures r.Success? ==> forall i :: 0 <= i < |order| ==> (order[i].skills in r.value <==> InDemandAt(order, i, ra, flowAfterBump))
    ensures r.Success? ==> forall tr :: tr in trs && |Assignees(ra, tr.skills)| < tr.headCount ==> tr.skills in r.value
    ensures r.Success? ==> forall s :: s in r.value ==> exists tr :: tr in trs && tr.skills == s
  {
    if !DistinctSkills(trs) {
      return Failure(InvalidState);
    }
    var net := NewAnalysisNetwork(q, trs, ra);
    if net.Failure? {
      return Failure(net.error);
    }
    var roles := GetTeamRolesAssignment(trs, ra);
    if roles.Failure? {
      return Failure(roles.error);
    }
    var m := roles.value;
    var committed := CommitMembers(trs, ra, m, q, net.value);
    if committed.Failure? {
      return Failure(committed.error);
    }
    var inDemand := DecideRoles(trs, ra, m, flowAfterBump, order);
    forall tr | tr in trs && |Assignees(ra, tr.skills)| < tr.headCount
      ensures tr.skills in inDemand
    {
      var i :| 0 <= i < |order| && order[i] == tr;
    }
    return Success(inDemand);
  }

  /** Decides one role. A role that is not exactly staffed is wanted. For
      a fully staffed one, every member's source arc is raised by one, the
      maximum flow is recomputed and compared with `flow`, the value read
      before the probe, and the flow is restored afterwards; the members
      bumped so far are returned in `bumped'`. */
  method ProbeRole(tr: TeamRequirement, members: set<Applicant>, flow: int, bumped: set<Applicant>,
                   flowAfterBump: (set<Applicant>, set<Applicant>) -> int)
    returns (wanted: bool, bumped': set<Applicant>)
    ensures bumped' == if |members| == tr.headCount then bumped + members else bumped
    ensures wanted <==> |members| != tr.headCount || flowAfterBump(bumped, members) > flow
  {
    bumped' := bumped;
    if tr.headCount == |members| {
      wanted := flowAfterBump(bumped, members) > flow;
      bumped' := bumped + members;
    } else {
      wanted := true;
    }
  }

  /** `m` lists under each requirement exactly the members assigned its
      skills. */
  ghost predicate GroupedBySkills(trs: set<TeamRequirement>, ra: RoleAssignments, m: TeamRoles)
  {
    forall tr, a :: tr in trs ==> (a in Get(m, tr) <==> a in ra && ra[a] == tr.skills)
  }

  /** Under a grouping by requirement, a requirement's group is the set of
      members assigned its skills. */
  lemma GroupIsAssignees(trs: set<TeamRequirement>, ra: RoleAssignments, m: TeamRoles, tr: TeamRequirement)
    requires GroupedBySkills(trs, ra, m)
    requires tr in trs
    ensures Get(m, tr) == Assignees(ra, tr.skills)
  {
    forall a
      ensures a in Get(m, tr) <==> a in Assignees(ra, tr.skills)
    {
    }
  }

  /** `inDemand` holds exactly the skill sets of the roles among the first
      `i` of `order` that were found in demand. */
  ghost predicate DecidedUpTo(ra: RoleAssignments, flowAfterBump: (set<Applicant>, set<Applicant>) -> int,
                              order: seq<TeamRequirement>, i: nat, inDemand: set<set<string>>)
    requires i <= |order|
  {
    && (forall j {:trigger InDemandAt(order, j, ra, flowAfterBump)} :: 0 <= j < i ==> (order[j].skills in inDemand <==> InDemandAt(order, j, ra, flowAfterBump)))
    && (forall s :: s in inDemand ==> exists j :: 0 <= j < i && order[j].skills == s)
  }

  /** Deciding one more role keeps the decisions taken so far, because no
      other role shares its skill set. */
  lemma DecideOneMore(trs: set<TeamRequirement>, ra: RoleAssignments, flowAfterBump: (set<Applicant>, set<Applicant>) -> int,
                      order: seq<TeamRequirement>, i: nat, before: set<set<string>>, after: set<set<string>>)
    requires DistinctSkills(trs) && Enumerates(order, trs) && i < |order|
    requires DecidedUpTo(ra, flowAfterBump, order, i, before)
    requires after == if InDemandAt(order, i, ra, flowAfterBump) then before + {order[i].skills} else before
    ensures DecidedUpTo(ra, flowAfterBump, order, i + 1, after)
  {
    forall j | 0 <= j < i
      ensures order[j].skills in after <==> order[j].skills in before
    {
      assert order[j] != order[i];
    }
    forall s | s in after
      ensures exists j :: 0 <= j < i + 1 && order[j].skills == s
    {
      if s != order[i].skills {
        assert s in before;
      }
    }
  }

  /** One turn of the decision loop: probes the role at position `i` of
      `order`, with the bumps of the earlier probes in place, and records
      its skill set when the role is in demand. */
  method DecideRole(trs: set<TeamRequirement>, ra: RoleAssignments, m: TeamRoles,
                    flowAfterBump: (set<Applicant>, set<Applicant>) -> int, order: seq<TeamRequirement>, i: nat,
                    bumped: set<Applicant>, inDemand: set<set<string>>)
    returns (inDemand': set<set<string>>, bumped': set<Applicant>)
    requires DistinctSkills(trs) && Enumerates(order, trs) && i < |order|
    requires GroupedBySkills(trs, ra, m)
    requires bumped == BumpedBefore(order, ra, i)
    requires DecidedUpTo(ra, flowAfterBump, order, i, inDemand)
    ensures bumped' == BumpedBefore(order, ra, i + 1)
    ensures order[i].skills in inDemand' <==> InDemandAt(order, i, ra, flowAfterBump)
    ensures DecidedUpTo(ra, flowAfterBump, order, i + 1, inDemand')
  {
    var tr := order[i];
    var members := Get(m, tr);
    GroupIsAssignees(trs, ra, m, tr);
    var wanted;
    wanted, bumped' := ProbeRole(tr, members, |ra|, bumped, flowAfterBump);
    assert bumped' == BumpedBefore(order, ra, i + 1);
    assert wanted <==> InDemandAt(order, i, ra, flowAfterBump);
    inDemand' := if wanted then inDemand + {tr.skills} else inDemand;
    DecideOneMore(trs, ra, flowAfterBump, order, i, inDemand, inDemand');
  }

  /** The decision loop over the requirements in iteration order: a role
      that is not exactly staffed is in demand; a fully staffed one is
      probed. The flow read before every probe is the committed one, since
      each probe restores it; the set of bumped members grows with every
      probe. */
  method DecideRoles(trs: set<TeamRequirement>, ra: RoleAssignments, m: TeamRoles,
                     flowAfterBump: (set<Applicant>, set<Applicant>) -> int, order: seq<TeamRequirement>)
    returns (inDemand: set<set<string>>)
    requires DistinctSkills(trs) && Enumerates(order, trs)
    requires GroupedBySkills(trs, ra, m)
    ensures forall i :: 0 <= i < |order| ==> (order[i].skills in inDemand <==> InDemandAt(order, i, ra, flowAfterBump))
    ensures forall s :: s in inDemand ==> exists tr :: tr in trs && tr.skills == s
  {
    inDemand := {};
    var bumped: set<Applicant> := {};
    for i := 0 to |order|
      invariant bumped == BumpedBefore(order, ra, i)
      invariant DecidedUpTo(ra, flowAfterBump, order, i, inDemand)
    {
      inDemand, bumped := DecideRole(trs, ra, m, flowAfterBump, order, i, bumped, inDemand);
    }
  }

  /** A role with fewer members than it needs is in demand, whatever the
      earlier probes bumped and whatever the probe reports. */
  lemma UnderstaffedRoleInDemand(tr: TeamRequirement, ra: RoleAssignments, bumped: set<Applicant>,
                                 flowAfterBump: (set<Applicant>, set<Applicant>) -> int)
    requires |Assignees(ra, tr.skills)| < tr.headCount
    ensures InDemand(tr, ra, bumped, flowAfterBump)
  {
  }

  /** With nobody on the team, every role that needs someone is in demand. */
  lemma UnstaffedRoleInDemand(tr: TeamRequirement, bumped: set<Applicant>, flowAfterBump: (set<Applicant>, set<Applicant>) -> int)
    requires tr.headCount > 0
    ensures InDemand(tr, map[], bumped, flowAfterBump)
  {
    assert Assignees(map[], tr.skills) == {};
  }

  /** When the bumps of earlier probes never lower the maximum flow, they
      can only add roles: a role found in demand with nothing bumped before
      it is found in demand at any position of the order. */
  lemma BumpsOnlyAddDemand(order: seq<TeamRequirement>, i: nat, ra: RoleAssignments,
                           flowAfterBump: (set<Applicant>, set<Applicant>) -> int)
    requires i < |order|
    requires forall b, b', s :: b <= b' ==> flowAfterBump(b, s) <= flowAfterBump(b', s)
    requires InDemand(order[i], ra, {}, flowAfterBump)
    ensures InDemandAt(order, i, ra, flowAfterBump)
  {
    assert {} <= BumpedBefore(order, ra, i);
  }

  /** The first role probed sees no bumps. */
  lemma FirstProbeAlone(order: seq<TeamRequirement>, ra: RoleAssignments, flowAfterBump: (set<Applicant>, set<Applicant>) -> int)
    requires |order| > 0
    ensures InDemandAt(order, 0, ra, flowAfterBump) <==> InDemand(order[0], ra, {}, flowAfterBump)
  {
  }
}

=== FILE: applicants.dfy ===
/** Applicants, team requirements and the qualification predicate. */
module Applicants {

  /** An applicant is an immutable value: two applicants with the same name
      and skills are equal (the class generates value equality). */
  datatype Applicant = Applicant(name: string, skills: set<string>)

  /** A team requirement: how many team members it needs and the skills
      each of them must have. Requirements are compared by object
      identity, so the record carries an `id` standing for that identity. */
  datatype TeamRequirement = TeamRequirement(id: nat, headCount: int, skills: set<string>)

  /** The set of the listed skills, duplicates collapsed. */
  function SkillSet(ks: seq<string>): (r: set<string>)
    ensures forall k :: k in r <==> k in ks
    ensures |r| <= |ks|
  {
    if |ks| == 0 then {}
    else
      var init := SkillSet(ks[..|ks| - 1]);
      assert forall k :: k in ks <==> k in ks[..|ks| - 1] || k == ks[|ks| - 1];
      init + {ks[|ks| - 1]}
  }

  /** An applicant whose skills are exactly the listed ones. */
  function NewApplicant(name: string, ks: seq<string>): (r: Applicant)
    ensures r.name == name
    ensures forall k :: k in r.skills <==> k in ks
    ensures |r.skills| <= |ks|
  {
    Applicant(name, SkillSet(ks))
  }

  /** A requirement needing `headCount` members with the listed skills. */
  function NewTeamRequirement(id: nat, headCount: int, ks: seq<string>): (r: TeamRequirement)
    ensures r.id == id && r.headCount == headCount
    ensures forall k :: k in r.skills <==> k in ks
  {
    TeamRequirement(id, headCount, SkillSet(ks))
  }

  /** The qualification test: the applicant has every one of the skills. */
  function HasSkills(a: Applicant, skills: set<string>): (r: bool)
    ensures r <==> forall k :: k in skills ==> k in a.skills
  {
    skills <= a.skills
  }

  /** Every applicant has the empty set of skills. */
  lemma HasNoSkillsRequired(a: Applicant)
    ensures HasSkills(a, {})
  {
  }

  /** Requiring fewer skills never disqualifies an applicant. */
  lemma HasSkillsMonotone(a: Applicant, s: set<string>, t: set<string>)
    requires s <= t
    ensures HasSkills(a, t) ==> HasSkills(a, s)
  {
  }

  /** An applicant built from a list of skills qualifies for exactly the
      skill sets drawn from that list. */
  lemma NewApplicantQualifies(name: string, ks: seq<string>, s: set<string>)
    ensures HasSkills(NewApplicant(name, ks), s) <==> forall k :: k in s ==> k in ks
  {
  }
}

=== FILE: flow.dfy ===
/** The residual view of a flow network, as the staffing layer sees it.

    The flow library the staffing layer builds on stores, for every ordered pair of nodes,
    the capacity still available from the first to the second: pushing `k`
    units along `u -> v` lowers the pair `(u, v)` by `k` and raises the
    reverse pair `(v, u)` by `k`. Reading the capacity of a pair the network
    never saw yields 0. */
module Flow {
  import opened Outcomes

  /** A node: the source, the sink, or a node wrapping a value of one side
      of the bipartite graph. Value nodes are equal iff their values are. */
  datatype Node<U, V> = Source | Sink | UNode(u: U) | VNode(v: V)

  /** Residual capacities, keyed by ordered node pairs. */
  type Caps<U(==), V(==)> = map<(Node<U, V>, Node<U, V>), nat>

  /** The residual capacity from `x` to `y`; 0 for a pair never set. */
  function Cap<U(==,!new), V(==,!new)>(c: Caps<U, V>, x: Node<U, V>, y: Node<U, V>): nat
  {
    if (x, y) in c then c[(x, y)] else 0
  }

  /** Moves `k` units of flow along `u -> v`; the residual capacity must
      allow it. */
  function Push<U(==,!new), V(==,!new)>(c: Caps<U, V>, k: nat, u: Node<U, V>, v: Node<U, V>): (r: Caps<U, V>)
    requires Cap(c, u, v) >= k
    ensures u != v ==> Cap(r, u, v) == Cap(c, u, v) - k && Cap(r, v, u) == Cap(c, v, u) + k
    ensures Cap(r, u, u) == Cap(c, u, u)
    ensures forall x, y :: (x, y) != (u, v) && (x, y) != (v, u) ==> Cap(r, x, y) == Cap(c, x, y)
  {
    var c1 := c[(u, v) := Cap(c, u, v) - k];
    c1[(v, u) := Cap(c1, v, u) + k]
  }

  /** Pushing back what was pushed restores every residual capacity. */
  lemma PushBackRestores<U(!new), V(!new)>(c: Caps<U, V>, k: nat, u: Node<U, V>, v: Node<U, V>)
    requires Cap(c, u, v) >= k
    ensures Cap(Push(c, k, u, v), v, u) >= k
    ensures var back := Push(Push(c, k, u, v), k, v, u);
            forall x, y :: Cap(back, x, y) == Cap(c, x, y)
  {
    var c1 := Push(c, k, u, v);
    var back := Push(c1, k, v, u);
    forall x, y
      ensures Cap(back, x, y) == Cap(c, x, y)
    {
      if u == v {
      } else if (x, y) == (u, v) || (x, y) == (v, u) {
      } else {
        assert Cap(back, x, y) == Cap(c1, x, y) == Cap(c, x, y);
      }
    }
  }

  /** `c` and `c'` describe the same arcs: for every pair of nodes the
      residual capacities both ways add up to the same total, so only the
      flow on the arcs differs. */
  ghost predicate SameArcs<U(!new), V(!new)>(c: Caps<U, V>, c': Caps<U, V>)
  {
    forall x, y :: Cap(c, x, y) + Cap(c, y, x) == Cap(c', x, y) + Cap(c', y, x)
  }

  /** Pushing flow moves capacity between a pair and its reverse and
      changes no arc. */
  lemma PushKeepsArcs<U(!new), V(!new)>(c: Caps<U, V>, k: nat, u: Node<U, V>, v: Node<U, V>)
    requires Cap(c, u, v) >= k
    ensures SameArcs(c, Push(c, k, u, v))
  {
  }

  /** How many units one unit of flow along source -> u -> v -> sink moves
      along the arc `x -> y`. */
  function Uses<U(==,!new), V(==,!new)>(u: U, v: V, x: Node<U, V>, y: Node<U, V>): nat
  {
    if (x, y) == (Source, UNode(u)) || (x, y) == (UNode(u), VNode(v)) || (x, y) == (VNode(v), Sink)
    then 1 else 0
  }

  /** The nodes one residual edge away from `x`. */
  function Successors<U(==,!new), V(==,!new)>(c: Caps<U, V>, x: Node<U, V>): (r: set<Node<U, V>>)
    ensures forall y :: y in r <==> Cap(c, x, y) > 0
  {
    set p | p in c && p.0 == x && c[p] > 0 :: p.1
  }

  /** The nodes with a residual edge into `y`. */
  function Predecessors<U(==,!new), V(==,!new)>(c: Caps<U, V>, y: Node<U, V>): (r: set<Node<U, V>>)
    ensures forall x :: x in r <==> Cap(c, x, y) > 0
  {
    set p | p in c && p.1 == y && c[p] > 0 :: p.0
  }

  /** Reference definition of the network a bipartite construction builds:
      source -> u of capacity 1 for every u; u -> v of capacity 1 when `q`
      holds; v -> sink of capacity `need[v]`; nothing else. */
  function InitialCap<U(==,!new), V(==,!new)>(q: (U, V) -> bool, us: set<U>, need: map<V, int>, x: Node<U, V>, y: Node<U, V>): int
  {
    match (x, y)
    case (Source, UNode(u)) => if u in us then 1 else 0
    case (UNode(u), VNode(v)) => if u in us && v in need && q(u, v) then 1 else 0
    case (VNode(v), Sink) => if v in need then need[v] else 0
    case _ => 0
  }

  /** Builds the bipartite network: first the arcs into the sink, one per
      V-item, then per U-item its arc from the source and its arcs to the
      V-items it qualifies for. A negative V-capacity is rejected. */
  method Build<U(==,!new), V(==,!new)>(q: (U, V) -> bool, us: set<U>, need: map<V, int>) returns (r: Result<Caps<U, V>>)
    ensures r.Failure? <==> exists v :: v in need && need[v] < 0
    ensures r.Failure? ==> r.error == InvalidArgument
    ensures r.Success? ==> forall x, y :: Cap(r.value, x, y) == InitialCap(q, us, need, x, y)
  {
    var c: Caps<U, V> := map[];
    var restV := need.Keys;
    ghost var doneV: set<V> := {};
    while restV != {}
      invariant restV + doneV == need.Keys && restV !! doneV
      invariant forall v :: v in doneV ==> need[v] >= 0
      invariant forall x, y :: Cap(c, x, y) == InitialCap(q, {}, need - restV, x, y)
      decreases restV
    {
      var v :| v in restV;
      if need[v] < 0 {
        return Failure(InvalidArgument);
      }
      ghost var c0 := c;
      c := c[(VNode(v), Sink) := need[v]];
      forall x, y
        ensures Cap(c, x, y) == InitialCap(q, {}, need - (restV - {v}), x, y)
      {
        if (x, y) != (VNode(v), Sink) {
          assert Cap(c, x, y) == Cap(c0, x, y);
        }
      }
      restV := restV - {v};
      doneV := doneV + {v};
    }
    assert need - restV == need;
    var restU := us;
    ghost var doneU: set<U> := {};
    while restU != {}
      invariant restU + doneU == us && restU !! doneU
      invariant forall x, y :: Cap(c, x, y) == InitialCap(q, doneU, need, x, y)
      decreases restU
    {
      var u :| u in restU;
      ghost var c0 := c;
      c := c[(Source, UNode(u)) := 1];
      var vs := need.Keys;
      forall x, y
        ensures Cap(c, x, y) ==
                if x == UNode(u) && y.VNode? then
                  (if y.v in need && y.v !in vs && q(u, y.v) then 1 else 0)
                else InitialCap(q, doneU + {u}, need, x, y)
      {
        if (x, y) != (Source, UNode(u)) {
          assert Cap(c, x, y) == Cap(c0, x, y);
        }
      }
      while vs != {}
        invariant vs <= need.Keys
        invariant forall x, y :: Cap(c, x, y) ==
                    if x == UNode(u) && y.VNode? then
                      (if y.v in need && y.v !in vs && q(u, y.v) then 1 else 0)
                    else InitialCap(q, doneU + {u}, need, x, y)
        decreases vs
      {
        var v :| v in vs;
        ghost var c1 := c;
        if q(u, v) {
          c := c[(UNode(u), VNode(v)) := 1];
        }
        forall x, y
          ensures Cap(c, x, y) ==
                  if x == UNode(u) && y.VNode? then
                    (if y.v in need && y.v !in vs - {v} && q(u, y.v) then 1 else 0)
                  else InitialCap(q, doneU + {u}, need, x, y)
        {
          if (x, y) != (UNode(u), VNode(v)) {
            assert Cap(c, x, y) == Cap(c1, x, y);
          }
        }
        vs := vs - {v};
      }
      restU := restU - {u};
      doneU := doneU + {u};
    }
    return Success(c);
  }
}

=== FILE: outcomes.dfy ===
/** Error signalling of the staffing layer: the exceptions the Java implementation
    throws become values that callers inspect. */
module Outcomes {

  /** The two exception kinds the staffing layer raises: an IllegalArgumentException
      and an IllegalStateException. */
  datatype Error = InvalidArgument | InvalidState

  /** A value, or the error that prevented computing it. */
  datatype Result<+T> = Success(value: T) | Failure(error: Error)

  /** Whether an operation that mutates state went through or threw. The
      state reached is returned beside it, because the Java objects keep
      whatever they changed before an exception was thrown. */
  datatype Outcome = Pass | Fail(error: Error)
}

=== FILE: scenarios.dfy ===
/** The repository's own examples, restated as lemmas about the model:
    three applicants and three requirements, with the skill-inclusion test
    as the qualification predicate. */
module Scenarios {
  import opened Outcomes
  import opened Applicants
  import opened Flow
  import opened TeamNetworks
  import opened Analyser

  const A1 := Applicant("applicant1", {"skill1", "skill2"})
  const A2 := Applicant("applicant2", {"skill1", "skill2", "skill3"})
  const A3 := Applicant("applicant3", {"skill2", "skill3"})
  const TR1 := TeamRequirement(1, 1, {"skill1"})
  const TR2 := TeamRequirement(2, 2, {"skill2"})
  const TR3 := TeamRequirement(3, 2, {"skill3"})

  /** `n` is the example network as built, before any flow is set. */
  ghost predicate IsExampleNetwork(n: TeamNetwork)
  {
    && !n.flowSet
    && forall x, y :: Cap(n.caps, x, y) == TeamCap(HasSkills, {A1, A2, A3}, {TR1, TR2, TR3}, x, y)
  }

  /** The residual capacities around the three applicants and the skill-2
      and skill-3 requirements: `src` from the source to each applicant and
      `back` from it back to the source; `room` from each requirement to the
      sink, so that the sink reaches it by the head-count 2 minus `room`;
      `fwd` from an applicant to a requirement and `rev` from the
      requirement back to the applicant. */
  predicate Around(c: TeamCaps, src1: int, src2: int, src3: int, back1: int, back2: int, back3: int,
                   room2: int, room3: int, fwd12: int, rev12: int, fwd22: int, rev22: int, fwd33: int, rev33: int)
  {
    && Cap(c, Source, UNode(A1)) == src1 && Cap(c, Source, UNode(A2)) == src2
    && Cap(c, Source, UNode(A3)) == src3 && Cap(c, UNode(A1), Source) == back1
    && Cap(c, UNode(A2), Source) == back2 && Cap(c, UNode(A3), Source) == back3
    && Cap(c, VNode(TR2), Sink) == room2 && Cap(c, VNode(TR3), Sink) == room3
    && Cap(c, Sink, VNode(TR2)) == 2 - room2 && Cap(c, Sink, VNode(TR3)) == 2 - room3
    && Cap(c, UNode(A1), VNode(TR2)) == fwd12 && Cap(c, VNode(TR2), UNode(A1)) == rev12
    && Cap(c, UNode(A2), VNode(TR2)) == fwd22 && Cap(c, VNode(TR2), UNode(A2)) == rev22
    && Cap(c, UNode(A3), VNode(TR3)) == fwd33 && Cap(c, VNode(TR3), UNode(A3)) == rev33
  }

  /** The arcs of the example network: who reaches which requirement, and
      the head-counts on the sink arcs. */
  lemma ExampleConstruction(n: TeamNetwork)
    requires IsExampleNetwork(n)
    ensures Cap(n.caps, UNode(A1), VNode(TR1)) == 1
    ensures Cap(n.caps, UNode(A1), VNode(TR3)) == 0
    ensures Cap(n.caps, UNode(A2), VNode(TR1)) == 1
    ensures Cap(n.caps, UNode(A2), VNode(TR3)) == 1
    ensures Cap(n.caps, UNode(A3), VNode(TR2)) == 1
    ensures Cap(n.caps, UNode(A3), VNode(TR1)) == 0
    ensures Cap(n.caps, VNode(TR1), Sink) == 1
    ensures Around(n.caps, src1 := 1, src2 := 1, src3 := 1, back1 := 0, back2 := 0, back3 := 0,
                   room2 := 2, room3 := 2, fwd12 := 1, rev12 := 0, fwd22 := 1, rev22 := 0, fwd33 := 1, rev33 := 0)
  {
    assert !HasSkills(A1, TR3.skills) by { assert "skill3" in TR3.skills; }
    assert !HasSkills(A3, TR1.skills) by { assert "skill1" in TR1.skills; }
    assert HasSkills(A1, TR2.skills) && HasSkills(A2, TR2.skills) && HasSkills(A3, TR3.skills);
    assert HasSkills(A1, TR1.skills) && HasSkills(A2, TR1.skills) && HasSkills(A2, TR3.skills) && HasSkills(A3, TR2.skills);
  }

  /** A bulk commit of applicant 3 to the skill-1 requirement fails with an
      invalid-state error and leaves every capacity as it was. */
  lemma ExampleInvalidEdit(n: TeamNetwork)
    requires IsExampleNetwork(n)
    ensures Fits(n.caps, [(A3, TR1)])
    ensures SetFlowBulk(n, [(A3, TR1)]) == (n.(flowSet := true), Fail(InvalidState))
  {
    assert !HasSkills(A3, TR1.skills) by { assert "skill1" in TR1.skills; }
    assert Cap(n.caps, UNode(A3), VNode(TR1)) == 0;
  }

  /** The first commit of the bulk example: applicant 1 to the skill-2
      requirement. */
  lemma ExampleBulkFirst(n: TeamNetwork)
    requires Around(n.caps, src1 := 1, src2 := 1, src3 := 1, back1 := 0, back2 := 0, back3 := 0,
                    room2 := 2, room3 := 2, fwd12 := 1, rev12 := 0, fwd22 := 1, rev22 := 0, fwd33 := 1, rev33 := 0)
    ensures CanCommit(n.caps, A1, TR2)
    ensures SetFlow(n, A1, TR2).1 == Pass
    ensures Around(SetFlow(n, A1, TR2).0.caps, src1 := 0, src2 := 1, src3 := 1, back1 := 1, back2 := 0, back3 := 0,
                   room2 := 1, room3 := 2, fwd12 := 0, rev12 := 1, fwd22 := 1, rev22 := 0, fwd33 := 1, rev33 := 0)
  {
  }

  /** The second: applicant 2 to the skill-2 requirement. */
  lemma ExampleBulkSecond(n: TeamNetwork)
    requires Around(n.caps, src1 := 0, src2 := 1, src3 := 1, back1 := 1, back2 := 0, back3 := 0,
                    room2 := 1, room3 := 2, fwd12 := 0, rev12 := 1, fwd22 := 1, rev22 := 0, fwd33 := 1, rev33 := 0)
    ensures CanCommit(n.caps, A2, TR2)
    ensures SetFlow(n, A2, TR2).1 == Pass
    ensures Around(SetFlow(n, A2, TR2).0.caps, src1 := 0, src2 := 0, src3 := 1, back1 := 1, back2 := 1, back3 := 0,
                   room2 := 0, room3 := 2, fwd12 := 0, rev12 := 1, fwd22 := 0, rev22 := 1, fwd33 := 1, rev33 := 0)
  {
  }

  /** The third: applicant 3 to the skill-3 requirement. */
  lemma ExampleBulkThird(n: TeamNetwork)
    requires Around(n.caps, src1 := 0, src2 := 0, src3 := 1, back1 := 1, back2 := 1, back3 := 0,
                    room2 := 0, room3 := 2, fwd12 := 0, rev12 := 1, fwd22 := 0, rev22 := 1, fwd33 := 1, rev33 := 0)
    ensures CanCommit(n.caps, A3, TR3)
    ensures SetFlow(n, A3, TR3).1 == Pass
    ensures Around(SetFlow(n, A3, TR3).0.caps, src1 := 0, src2 := 0, src3 := 0, back1 := 1, back2 := 1, back3 := 1,
                   room2 := 0, room3 := 1, fwd12 := 0, rev12 := 1, fwd22 := 0, rev22 := 1, fwd33 := 0, rev33 := 1)
  {
  }

  /** A bulk commit of applicants 1 and 2 to the skill-2 requirement and
      applicant 3 to the skill-3 requirement passes: each applicant then
      has a residual edge back to the source, the sink reaches the skill-2
      requirement by 2 and the skill-3 one by 1, and each requirement has
      a residual edge back to its members. */
  lemma ExampleBulk(n: TeamNetwork)
    requires IsExampleNetwork(n)
    ensures Fits(n.caps, [(A1, TR2), (A2, TR2), (A3, TR3)])
    ensures SetFlowBulk(n, [(A1, TR2), (A2, TR2), (A3, TR3)]).1 == Pass
    ensures Around(SetFlowBulk(n, [(A1, TR2), (A2, TR2), (A3, TR3)]).0.caps,
                   src1 := 0, src2 := 0, src3 := 0, back1 := 1, back2 := 1, back3 := 1,
                   room2 := 0, room3 := 1, fwd12 := 0, rev12 := 1, fwd22 := 0, rev22 := 1, fwd33 := 0, rev33 := 1)
  {
    var p := [(A1, TR2), (A2, TR2), (A3, TR3)];
    ExampleConstruction(n);
    var n0 := n.(flowSet := true);
    ExampleBulkFirst(n0);
    var n1 := SetFlow(n0, A1, TR2).0;
    ExampleBulkSecond(n1);
    var n2 := SetFlow(n1, A2, TR2).0;
    ExampleBulkThird(n2);
    var n3 := SetFlow(n2, A3, TR3).0;
    assert p[1..] == [(A2, TR2), (A3, TR3)] && p[1..][1..] == [(A3, TR3)];
    assert Fits(n2.caps, p[1..][1..]);
    assert Fits(n1.caps, p[1..]);
    assert SetFlowAll(n2, p[1..][1..]) == (n3, Pass);
    assert SetFlowAll(n1, p[1..]) == (n3, Pass);
    assert SetFlowAll(n0, p) == (n3, Pass);
  }

  /** Committing applicant 2 to the skill-2 requirement succeeds and moves
      one unit along source -> applicant 2 -> skill 2 -> sink. */
  lemma ExampleFirstEdit(n: TeamNetwork)
    requires Around(n.caps, src1 := 1, src2 := 1, src3 := 1, back1 := 0, back2 := 0, back3 := 0,
                    room2 := 2, room3 := 2, fwd12 := 1, rev12 := 0, fwd22 := 1, rev22 := 0, fwd33 := 1, rev33 := 0)
    ensures CanCommit(n.caps, A2, TR2)
    ensures SetFlow(n, A2, TR2).1 == Pass
    ensures Around(SetFlow(n, A2, TR2).0.caps, src1 := 1, src2 := 0, src3 := 1, back1 := 0, back2 := 1, back3 := 0,
                   room2 := 1, room3 := 2, fwd12 := 1, rev12 := 0, fwd22 := 0, rev22 := 1, fwd33 := 1, rev33 := 0)
  {
  }

  /** From there, committing applicant 3 to the skill-3 requirement
      succeeds too. */
  lemma ExampleSecondEdit(n: TeamNetwork)
    requires Around(n.caps, src1 := 1, src2 := 0, src3 := 1, back1 := 0, back2 := 1, back3 := 0,
                    room2 := 1, room3 := 2, fwd12 := 1, rev12 := 0, fwd22 := 0, rev22 := 1, fwd33 := 1, rev33 := 0)
    ensures CanCommit(n.caps, A3, TR3)
    ensures SetFlow(n, A3, TR3).1 == Pass
    ensures Around(SetFlow(n, A3, TR3).0.caps, src1 := 1, src2 := 0, src3 := 0, back1 := 0, back2 := 1, back3 := 1,
                   room2 := 1, room3 := 1, fwd12 := 1, rev12 := 0, fwd22 := 0, rev22 := 1, fwd33 := 0, rev33 := 1)
  {
  }

  /** Committing applicant 2 to the skill-2 requirement and applicant 3 to
      the skill-3 requirement leaves residual edges back to the source from
      exactly those two, and one unit on each of the two sink arcs. */
  lemma ExampleEdits(n: TeamNetwork)
    requires IsExampleNetwork(n)
    ensures CanCommit(n.caps, A2, TR2)
    ensures SetFlow(n, A2, TR2).1 == Pass
    ensures CanCommit(SetFlow(n, A2, TR2).0.caps, A3, TR3)
    ensures SetFlow(SetFlow(n, A2, TR2).0, A3, TR3).1 == Pass
    ensures Around(SetFlow(SetFlow(n, A2, TR2).0, A3, TR3).0.caps,
                   src1 := 1, src2 := 0, src3 := 0, back1 := 0, back2 := 1, back3 := 1,
                   room2 := 1, room3 := 1, fwd12 := 1, rev12 := 0, fwd22 := 0, rev22 := 1, fwd33 := 0, rev33 := 1)
  {
    ExampleConstruction(n);
    ExampleFirstEdit(n);
    ExampleSecondEdit(SetFlow(n, A2, TR2).0);
  }

  /** The analyser's examples: two roles, one needing two people with
      skill 1 and one needing one person with skills 2 and 3, or the other
      way round for the one-member team. */
  const E1 := TeamRequirement(1, 2, {"skill1"})
  const E2 := TeamRequirement(2, 1, {"skill2", "skill3"})
  const O1 := TeamRequirement(1, 1, {"skill1"})
  const O2 := TeamRequirement(2, 2, {"skill2", "skill3"})

  /** With nobody on the team, both roles are in demand, in either
      iteration order and whatever the probe reports. */
  lemma ExampleEmptyTeam(order: seq<TeamRequirement>, probe: (set<Applicant>, set<Applicant>) -> int)
    requires Enumerates(order, {E1, E2})
    ensures forall i :: 0 <= i < |order| ==> InDemandAt(order, i, map[], probe)
  {
    forall i | 0 <= i < |order|
      ensures InDemandAt(order, i, map[], probe)
    {
      UnstaffedRoleInDemand(order[i], BumpedBefore(order, map[], i), probe);
    }
  }

  /** Applicant 1 on the one-person skill-1 role. */
  const OneMember := map[A1 := {"skill1"}]

  /** Nobody is bumped before the skill-1 role is probed: the only other
      role is understaffed. */
  lemma ExampleOneMemberNoBumps(order: seq<TeamRequirement>, i: nat, a: Applicant)
    requires Enumerates(order, {O1, O2}) && i < |order| && order[i] == O1
    ensures a !in BumpedBefore(order, OneMember, i)
  {
    BumpedMember(order, OneMember, i, a);
    forall j | 0 <= j < i
      ensures !FullyStaffedMember(order, OneMember, j, a)
    {
      assert order[j] != order[i];
      assert {"skill2", "skill3"} != {"skill1"} by { assert "skill2" !in {"skill1"}; }
    }
  }

  /** Applicant 1 fills the one-person skill-1 role: the skill-2/3 role,
      needing two, is in demand; the skill-1 role is in demand exactly when
      the probe finds applicant 1 could take on more. Either order gives
      the same answer, as the understaffed role bumps nobody. */
  lemma ExampleOneMember(order: seq<TeamRequirement>, probe: (set<Applicant>, set<Applicant>) -> int)
    requires Enumerates(order, {O1, O2})
    ensures forall i :: 0 <= i < |order| && order[i] == O2 ==> InDemandAt(order, i, OneMember, probe)
    ensures forall i :: 0 <= i < |order| && order[i] == O1 ==> (InDemandAt(order, i, OneMember, probe) <==> probe({}, {A1}) > 1)
  {
    assert Assignees(OneMember, {"skill1"}) == {A1};
    assert {"skill2", "skill3"} != {"skill1"} by { assert "skill2" !in {"skill1"}; }
    assert Assignees(OneMember, {"skill2", "skill3"}) == {};
    forall i | 0 <= i < |order| && order[i] == O1
      ensures BumpedBefore(order, OneMember, i) == {}
    {
      forall a
        ensures a !in BumpedBefore(order, OneMember, i)
      {
        ExampleOneMemberNoBumps(order, i, a);
      }
    }
  }

  /** Three roles of one person, one person and two people, staffed by
      B1, B2 and B3 in turn; B1 also has skill 3. */
  const B1 := Applicant("b1", {"skill1", "skill3"})
  const B2 := Applicant("b2", {"skill2"})
  const B3 := Applicant("b3", {"skill3"})
  const P1 := TeamRequirement(4, 1, {"skill1"})
  const P2 := TeamRequirement(5, 1, {"skill2"})
  const P3 := TeamRequirement(6, 2, {"skill3"})

  /** B1 to the skill-1 role, B2 to the skill-2 role, B3 to the skill-3
      role. */
  const StaffedByB := map[B1 := {"skill1"}, B2 := {"skill2"}, B3 := {"skill3"}]

  /** The maximum flow of that team after a bump, with skill inclusion as
      the qualification and a restore that keeps the raised source arcs:
      3 committed, and one more exactly when B1 may take a second role,
      bumped now or before, as B1 then also takes the free skill-3 place;
      a second role for B2 or B3 finds no free place they qualify for. */
  function ProbeB(bumped: set<Applicant>, s: set<Applicant>): int
  {
    3 + (if B1 in bumped + s then 1 else 0)
  }

  /** The same with a restore that lowers the raised source arcs again:
      only the members bumped by this probe count. */
  function ProbeBRestored(bumped: set<Applicant>, s: set<Applicant>): int
  {
    3 + (if B1 in s then 1 else 0)
  }

  /** Both orders list the three roles once each. */
  lemma ExampleOrders()
    ensures Enumerates([P1, P2, P3], {P1, P2, P3}) && Enumerates([P2, P1, P3], {P1, P2, P3})
  {
  }

  /** The bumps a probe leaves behind change later answers: probing the
      skill-1 role first leaves B1 bumped, and the skill-2 role, probed
      next, is then found in demand. */
  lemma ExampleProbeSkill1First()
    ensures InDemandAt([P1, P2, P3], 1, StaffedByB, ProbeB)
  {
    assert "skill1" !in {"skill2"} && "skill1" !in {"skill3"};
    assert Assignees(StaffedByB, {"skill1"}) == {B1};
    assert FullyStaffedMember([P1, P2, P3], StaffedByB, 0, B1);
    BumpedMember([P1, P2, P3], StaffedByB, 1, B1);
    assert B1 in BumpedBefore([P1, P2, P3], StaffedByB, 1);
  }

  /** With a restore that lowers the raised arcs again, the skill-2 role
      probed after the skill-1 role is not in demand: the answer of a later
      probe depends on what restoring does to the bumps. */
  lemma ExampleRestoreUndoesBumps()
    ensures !InDemandAt([P1, P2, P3], 1, StaffedByB, ProbeBRestored)
  {
    assert "skill2" !in {"skill1"} && "skill2" !in {"skill3"};
    assert Assignees(StaffedByB, {"skill2"}) == {B2};
  }

  /** Probing the skill-2 role first, with nothing bumped yet, finds it not
      in demand. */
  lemma ExampleProbeSkill2First()
    ensures !InDemandAt([P2, P1, P3], 0, StaffedByB, ProbeB)
  {
    assert "skill2" !in {"skill1"} && "skill2" !in {"skill3"};
    assert Assignees(StaffedByB, {"skill2"}) == {B2};
    assert BumpedBefore([P2, P1, P3], StaffedByB, 0) == {};
  }
}

=== FILE: teamnetwork.dfy ===
/** The staffing network: applicants on the U side, team requirements on
    the V side, and the manual flow edits that commit known assignments. */
module TeamNetworks {
  import opened Outcomes
  import opened Applicants
  import opened Flow

  type TeamNode = Node<Applicant, TeamRequirement>
  type TeamCaps = Caps<Applicant, TeamRequirement>

  /** A committed assignment: the applicant and the requirement it fills. */
  type Assignment = (Applicant, TeamRequirement)

  /** The staffing network. `flowSet` records whether the max-flow solver
      has been attached (the Java field `flow` is not null); `amount` is the flow
      value the solver reports, one unit per committed assignment. */
  datatype TeamNetwork = TeamNetwork(caps: TeamCaps, flowSet: bool, amount: int)

  /** The capacity of each requirement's arc into the sink. */
  function Demand(trs: set<TeamRequirement>): (r: map<TeamRequirement, int>)
    ensures r.Keys == trs
    ensures forall tr :: tr in trs ==> r[tr] == tr.headCount
  {
    map tr | tr in trs :: tr.headCount
  }

  /** An applicant qualifies for a requirement when it qualifies for the
      requirement's skill set. */
  function Qualifies(q: (Applicant, set<string>) -> bool): (Applicant, TeamRequirement) -> bool
  {
    (a: Applicant, tr: TeamRequirement) => q(a, tr.skills)
  }

  /** Reference definition of the staffing network before any flow: the
      bipartite construction over applicants and requirements. */
  function TeamCap(q: (Applicant, set<string>) -> bool, apps: set<Applicant>, trs: set<TeamRequirement>,
                   x: TeamNode, y: TeamNode): int
  {
    InitialCap(Qualifies(q), apps, Demand(trs), x, y)
  }

  /** No flow has been pushed yet: no reverse residual edge exists and every
      source arc carries at most one unit. */
  ghost predicate Clean(c: TeamCaps)
  {
    && (forall a :: Cap(c, UNode(a), Source) == 0)
    && (forall a :: Cap(c, Source, UNode(a)) <= 1)
    && (forall a, tr :: Cap(c, VNode(tr), UNode(a)) == 0)
    && (forall tr :: Cap(c, Sink, VNode(tr)) == 0)
  }

  /** Builds the staffing network: source -> applicant of capacity 1,
      applicant -> requirement of capacity 1 when the applicant qualifies
      for the requirement's skills, requirement -> sink of capacity equal to
      the head-count. No flow solver is attached yet. */
  method NewTeamNetwork(q: (Applicant, set<string>) -> bool, apps: set<Applicant>, trs: set<TeamRequirement>)
    returns (r: Result<TeamNetwork>)
    ensures r.Failure? <==> exists tr :: tr in trs && tr.headCount < 0
    ensures r.Failure? ==> r.error == InvalidArgument
    ensures r.Success? ==> !r.value.flowSet && r.value.amount == 0
    ensures r.Success? ==> forall a :: a in apps ==> Cap(r.value.caps, Source, UNode(a)) == 1
    ensures r.Success? ==> forall tr :: tr in trs ==> Cap(r.value.caps, VNode(tr), Sink) == tr.headCount
    ensures r.Success? ==> forall a, tr :: a in apps && tr in trs ==>
                             Cap(r.value.caps, UNode(a), VNode(tr)) == (if q(a, tr.skills) then 1 else 0)
    ensures r.Success? ==> forall a, tr :: a in apps && tr in trs ==>
                             (VNode(tr) in Successors(r.value.caps, UNode(a)) <==> q(a, tr.skills))
    ensures r.Success? ==> forall x, y :: Cap(r.value.caps, x, y) == TeamCap(q, apps, trs, x, y)
    ensures r.Success? ==> Clean(r.value.caps)
  {
    var built := Build(Qualifies(q), apps, Demand(trs));
    if built.Failure? {
      return Failure(built.error);
    }
    var c := built.value;
    return Success(TeamNetwork(c, false, 0));
  }

  /** Looks for a residual edge from `tail` straight to `head`: the path is
      the two nodes when there is one, empty otherwise. */
  function PathSearch(c: TeamCaps, tail: TeamNode, head: TeamNode): (r: seq<TeamNode>)
    ensures r == [] || r == [tail, head]
    ensures r != [] <==> Cap(c, tail, head) > 0
  {
    if head in Successors(c, tail) then [tail, head] else []
  }

  /** How many consecutive steps of `path` go from `x` to `y`. */
  function StepsOn(path: seq<TeamNode>, x: TeamNode, y: TeamNode): nat
    decreases |path|
  {
    if |path| < 2 then 0
    else (if path[0] == x && path[1] == y then 1 else 0) + StepsOn(path[1..], x, y)
  }

  /** Every step of `path` still has a unit of residual capacity when the
      walk reaches it. */
  predicate PathFits(c: TeamCaps, path: seq<TeamNode>)
    decreases |path|
  {
    |path| < 2 || (Cap(c, path[0], path[1]) >= 1 && PathFits(Push(c, 1, path[0], path[1]), path[1..]))
  }

  /** Pushes one unit along each step of a non-empty path. */
  function PushAlongPath(c: TeamCaps, path: seq<TeamNode>): (r: TeamCaps)
    requires |path| >= 1 && PathFits(c, path)
    ensures forall x, y :: Cap(r, x, y) == Cap(c, x, y) - StepsOn(path, x, y) + StepsOn(path, y, x)
    decreases |path|
  {
    if |path| == 1 then c
    else PushAlongPath(Push(c, 1, path[0], path[1]), path[1..])
  }

  /** The precondition the flow library puts on a commit: when the
      applicant reaches the requirement, the source arc and the sink arc
      still have room for one unit. */
  predicate CanCommit(c: TeamCaps, a: Applicant, tr: TeamRequirement)
  {
    Cap(c, UNode(a), VNode(tr)) > 0 ==> Cap(c, Source, UNode(a)) >= 1 && Cap(c, VNode(tr), Sink) >= 1
  }

  /** One unit along source -> a, then along the found path a -> tr, then
      along tr -> sink. */
  function Commit(c: TeamCaps, a: Applicant, tr: TeamRequirement, path: seq<TeamNode>): (r: TeamCaps)
    requires path == [UNode(a), VNode(tr)]
    requires Cap(c, Source, UNode(a)) >= 1 && Cap(c, UNode(a), VNode(tr)) >= 1 && Cap(c, VNode(tr), Sink) >= 1
    ensures forall x, y :: Cap(r, x, y) == Cap(c, x, y) - Uses(a, tr, x, y) + Uses(a, tr, y, x)
  {
    var c1 := Push(c, 1, Source, UNode(a));
    assert PathFits(c1, path) by {
      assert Cap(c1, UNode(a), VNode(tr)) == Cap(c, UNode(a), VNode(tr));
      assert path[1..] == [VNode(tr)];
    }
    SingleStep(UNode(a), VNode(tr));
    var c2 := PushAlongPath(c1, path);
    assert Cap(c2, VNode(tr), Sink) == Cap(c, VNode(tr), Sink);
    Push(c2, 1, VNode(tr), Sink)
  }

  /** A one-step path takes its own pair once and no other pair. */
  lemma SingleStep(u: TeamNode, v: TeamNode)
    ensures forall x, y :: StepsOn([u, v], x, y) == if (x, y) == (u, v) then 1 else 0
  {
    assert [u, v][1..] == [v];
  }

  /** Commits applicant `a` to requirement `tr`. The solver is attached
      first if it is not yet; then, if no residual edge a -> tr exists, the
      edit fails with an invalid-state error and no capacity changes. */
  function SetFlow(n: TeamNetwork, a: Applicant, tr: TeamRequirement): (r: (TeamNetwork, Outcome))
    requires CanCommit(n.caps, a, tr)
    ensures r.0.flowSet
    ensures r.1.Pass? <==> Cap(n.caps, UNode(a), VNode(tr)) > 0
    ensures r.1.Fail? ==> r.1.error == InvalidState && r.0.caps == n.caps && r.0.amount == n.amount
    ensures r.1.Pass? ==> r.0.amount == n.amount + 1
    ensures r.1.Pass? ==> forall x, y :: Cap(r.0.caps, x, y) == Cap(n.caps, x, y) - Uses(a, tr, x, y) + Uses(a, tr, y, x)
  {
    var n1 := n.(flowSet := true);
    var path := PathSearch(n1.caps, UNode(a), VNode(tr));
    if path == [] then (n1, Fail(InvalidState))
    else (n1.(caps := Commit(n1.caps, a, tr, path), amount := n1.amount + 1), Pass)
  }

  /** Every commit in `pairs` satisfies the flow library's precondition in
      the state the earlier commits leave behind. */
  predicate Fits(c: TeamCaps, pairs: seq<Assignment>)
    decreases |pairs|
  {
    || |pairs| == 0
    || (var (a, tr) := pairs[0];
        && CanCommit(c, a, tr)
        && (Cap(c, UNode(a), VNode(tr)) > 0 ==> Fits(Commit(c, a, tr, [UNode(a), VNode(tr)]), pairs[1..])))
  }

  /** How many units the commits in `pairs` move along `x -> y`. */
  function Units(pairs: seq<Assignment>, x: TeamNode, y: TeamNode): nat
    decreases |pairs|
  {
    if |pairs| == 0 then 0 else Uses(pairs[0].0, pairs[0].1, x, y) + Units(pairs[1..], x, y)
  }

  /** How many of `pairs`, taken in order, find the residual edge from
      their applicant to their requirement in the state the earlier commits
      leave: the length of the prefix a run of edits gets through. */
  function Accepted(c: TeamCaps, pairs: seq<Assignment>): (k: nat)
    requires Fits(c, pairs)
    ensures k <= |pairs|
    decreases |pairs|
  {
    if |pairs| == 0 then 0
    else
      var (a, tr) := pairs[0];
      if Cap(c, UNode(a), VNode(tr)) == 0 then 0
      else 1 + Accepted(Commit(c, a, tr, [UNode(a), VNode(tr)]), pairs[1..])
  }

  /** Commits the pairs in order, stopping at the first failure. The
      commits made before a failing pair stay in place, and the failing
      pair is one whose applicant no longer reaches its requirement. */
  function SetFlowAll(n: TeamNetwork, pairs: seq<Assignment>): (r: (TeamNetwork, Outcome))
    requires Fits(n.caps, pairs)
    ensures n.flowSet || |pairs| > 0 ==> r.0.flowSet
    ensures r.1.Fail? ==> r.1.error == InvalidState
    ensures r.1.Pass? <==> Accepted(n.caps, pairs) == |pairs|
    ensures r.0.amount == n.amount + Accepted(n.caps, pairs)
    ensures Committed(n.caps, pairs[..Accepted(n.caps, pairs)], r.0.caps)
    ensures var k := Accepted(n.caps, pairs);
            r.1.Fail? ==> k < |pairs| && Cap(r.0.caps, UNode(pairs[k].0), VNode(pairs[k].1)) == 0
    ensures r.1.Pass? ==> r.0.amount == n.amount + |pairs|
    ensures r.1.Pass? ==> forall x, y :: Cap(r.0.caps, x, y) == Cap(n.caps, x, y) - Units(pairs, x, y) + Units(pairs, y, x)
    decreases |pairs|
  {
    if |pairs| == 0 then (n, Pass)
    else
      var (n1, o) := SetFlow(n, pairs[0].0, pairs[0].1);
      if o.Fail? then (n1, o)
      else
        var r := SetFlowAll(n1, pairs[1..]);
        CommittedAfterOne(n.caps, n1.caps, pairs, Accepted(n1.caps, pairs[1..]), r.0.caps);
        r
  }

  /** Commits a whole existing staffing (the multimap's entries, in its
      iteration order). Allowed only while no solver is attached: flow set
      once by any earlier call makes it fail with invalid-state, unchanged.
      Otherwise it passes exactly when every pair finds its edge in turn. */
  function SetFlowBulk(n: TeamNetwork, pairs: seq<Assignment>): (r: (TeamNetwork, Outcome))
    requires !n.flowSet ==> Fits(n.caps, pairs)
    ensures n.flowSet ==> r == (n, Fail(InvalidState))
    ensures !n.flowSet ==> r.0.flowSet
    ensures !n.flowSet ==> (r.1.Pass? <==> Accepted(n.caps, pairs) == |pairs|)
    ensures !n.flowSet ==> Committed(n.caps, pairs[..Accepted(n.caps, pairs)], r.0.caps)
    ensures r.1.Fail? ==> r.1.error == InvalidState
    ensures r.1.Pass? ==> r.0.amount == n.amount + |pairs|
    ensures r.1.Pass? ==> forall x, y :: Cap(r.0.caps, x, y) == Cap(n.caps, x, y) - Units(pairs, x, y) + Units(pairs, y, x)
  {
    if n.flowSet then (n, Fail(InvalidState))
    else SetFlowAll(n.(flowSet := true), pairs)
  }

  /** Runs the max-flow solver, attaching it first if needed. The solver is
      not part of this model: `solve` stands for it, returning the new
      residual capacities and the flow value. */
  function PreflowPush(n: TeamNetwork, solve: TeamCaps -> (TeamCaps, int)): (r: TeamNetwork)
    ensures r.flowSet
    ensures (r.caps, r.amount) == solve(n.caps)
  {
    TeamNetwork(solve(n.caps).0, true, solve(n.caps).1)
  }

  /** The flow value; an invalid-state error while no solver is attached. */
  function GetFlowAmount(n: TeamNetwork): (r: Result<int>)
    ensures r.Failure? <==> !n.flowSet
    ensures r.Failure? ==> r.error == InvalidState
    ensures r.Success? ==> r.value == n.amount
  {
    if !n.flowSet then Failure(InvalidState) else Success(n.amount)
  }

  /** What reading assignments back from `c` yields: every applicant with a
      residual edge back to the source that some requirement reached from
      the sink has a residual edge to, mapped to such a requirement's skills. */
  ghost predicate ReadsBack(c: TeamCaps, m: map<Applicant, set<string>>)
  {
    && (forall a :: a in m <==>
          (Cap(c, UNode(a), Source) > 0
           && exists tr :: Cap(c, Sink, VNode(tr)) > 0 && Cap(c, VNode(tr), UNode(a)) > 0))
    && (forall a :: a in m ==>
          exists tr :: Cap(c, Sink, VNode(tr)) > 0 && Cap(c, VNode(tr), UNode(a)) > 0 && m[a] == tr.skills)
  }

  /** Reads the assignments back from the residual graph: for every
      requirement node the sink reaches and every applicant node that
      reaches the source, a residual edge requirement -> applicant means the
      applicant fills that requirement. */
  method GetRoleAssignments(n: TeamNetwork) returns (m: map<Applicant, set<string>>)
    ensures ReadsBack(n.caps, m)
  {
    var c := n.caps;
    m := map[];
    var members := Predecessors(c, Source);
    var trNodes := Successors(c, Sink);
    ghost var doneT: set<TeamNode> := {};
    while trNodes != {}
      invariant trNodes + doneT == Successors(c, Sink)
      invariant forall a :: a in m <==>
                  (UNode(a) in members && exists tr :: VNode(tr) in doneT && Cap(c, VNode(tr), UNode(a)) > 0)
      invariant forall a :: a in m ==>
                  exists tr :: VNode(tr) in doneT && Cap(c, VNode(tr), UNode(a)) > 0 && m[a] == tr.skills
      decreases trNodes
    {
      var t :| t in trNodes;
      var ms := members;
      ghost var doneM: set<TeamNode> := {};
      while ms != {}
        invariant ms + doneM == members
        invariant forall a :: a in m <==>
                    (UNode(a) in members && exists tr :: VNode(tr) in doneT && Cap(c, VNode(tr), UNode(a)) > 0)
                    || (t.VNode? && UNode(a) in doneM && Cap(c, t, UNode(a)) > 0)
        invariant forall a :: a in m ==>
                    exists tr :: VNode(tr) in doneT + {t} && Cap(c, VNode(tr), UNode(a)) > 0 && m[a] == tr.skills
        decreases ms
      {
        var p :| p in ms;
        if t.VNode? && p.UNode? && p in Successors(c, t) {
          m := m[p.u := t.v.skills];
        }
        ms := ms - {p};
        doneM := doneM + {p};
      }
      trNodes := trNodes - {t};
      doneT := doneT + {t};
    }
  }

  /** How many of the pairs commit applicant `a`. */
  function Commits(pairs: seq<Assignment>, a: Applicant): nat
    decreases |pairs|
  {
    if |pairs| == 0 then 0 else (if pairs[0].0 == a then 1 else 0) + Commits(pairs[1..], a)
  }

  /** The units a sequence of commits moves along the arcs of the staffing
      network, and that it moves none along reverse arcs. */
  lemma {:induction false} UnitsOnTeamArcs(pairs: seq<Assignment>, a: Applicant, tr: TeamRequirement)
    ensures Units(pairs, Source, UNode(a)) == Commits(pairs, a)
    ensures Units(pairs, UNode(a), VNode(tr)) > 0 <==> (a, tr) in pairs
    ensures Units(pairs, VNode(tr), Sink) > 0 <==> exists i :: 0 <= i < |pairs| && pairs[i].1 == tr
    ensures Units(pairs, UNode(a), Source) == 0
    ensures Units(pairs, VNode(tr), UNode(a)) == 0
    ensures Units(pairs, Sink, VNode(tr)) == 0
    decreases |pairs|
  {
    if |pairs| > 0 {
      var rest := pairs[1..];
      UnitsOnTeamArcs(rest, a, tr);
      assert (a, tr) in pairs <==> pairs[0] == (a, tr) || (a, tr) in rest;
      if exists i :: 0 <= i < |rest| && rest[i].1 == tr {
        var i :| 0 <= i < |rest| && rest[i].1 == tr;
        assert pairs[i + 1].1 == tr;
      }
      if exists i :: 0 <= i < |pairs| && pairs[i].1 == tr {
        var i :| 0 <= i < |pairs| && pairs[i].1 == tr;
        if i > 0 {
          assert rest[i - 1].1 == tr;
        }
      }
    }
  }

  /** Two different positions committing the same applicant count twice. */
  lemma {:induction false} CommitsTwice(pairs: seq<Assignment>, i: nat, j: nat)
    requires i < j < |pairs| && pairs[i].0 == pairs[j].0
    ensures Commits(pairs, pairs[i].0) >= 2
    decreases |pairs|
  {
    var a := pairs[i].0;
    if i == 0 {
      CommitsOnce(pairs[1..], j - 1);
    } else {
      CommitsTwice(pairs[1..], i - 1, j - 1);
    }
  }

  /** A position committing `a` counts at least once. */
  lemma {:induction false} CommitsOnce(pairs: seq<Assignment>, i: nat)
    requires i < |pairs|
    ensures Commits(pairs, pairs[i].0) >= 1
    decreases |pairs|
  {
    if i > 0 {
      CommitsOnce(pairs[1..], i - 1);
    }
  }

  /** `c` is what committing `pairs` on `c0` leaves. */
  ghost predicate Committed(c0: TeamCaps, pairs: seq<Assignment>, c: TeamCaps)
  {
    forall x, y :: Cap(c, x, y) == Cap(c0, x, y) - Units(pairs, x, y) + Units(pairs, y, x)
  }

  /** One commit followed by `k` more: what the `k` commits leave after the
      first is what the first `k + 1` leave from the start. */
  lemma CommittedAfterOne(c0: TeamCaps, c1: TeamCaps, pairs: seq<Assignment>, k: nat, c: TeamCaps)
    requires k < |pairs|
    requires forall x, y :: Cap(c1, x, y) == Cap(c0, x, y) - Uses(pairs[0].0, pairs[0].1, x, y) + Uses(pairs[0].0, pairs[0].1, y, x)
    requires Committed(c1, pairs[1..][..k], c)
    ensures Committed(c0, pairs[..k + 1], c)
  {
    assert pairs[..k + 1][1..] == pairs[1..][..k];
  }

  /** Committing on a network without flow cannot name an applicant twice:
      its source arc has room for one unit only. */
  lemma CommitsDistinct(c0: TeamCaps, pairs: seq<Assignment>, c: TeamCaps)
    requires Clean(c0) && Committed(c0, pairs, c)
    ensures forall i, j :: 0 <= i < j < |pairs| ==> pairs[i].0 != pairs[j].0
  {
    forall i, j | 0 <= i < j < |pairs|
      ensures pairs[i].0 != pairs[j].0
    {
      if pairs[i].0 == pairs[j].0 {
        var a := pairs[i].0;
        CommitsTwice(pairs, i, j);
        UnitsOnTeamArcs(pairs, a, pairs[i].1);
        assert false;
      }
    }
  }

  /** After commits on a network without flow, each committed pair leaves
      the three reverse residual edges that reading back looks for. */
  lemma CommittedEdges(c0: TeamCaps, pairs: seq<Assignment>, c: TeamCaps, i: nat)
    requires Clean(c0) && Committed(c0, pairs, c) && i < |pairs|
    ensures Cap(c, VNode(pairs[i].1), UNode(pairs[i].0)) > 0
    ensures Cap(c, Sink, VNode(pairs[i].1)) > 0
    ensures Cap(c, UNode(pairs[i].0), Source) > 0
  {
    var (a, tr) := pairs[i];
    UnitsOnTeamArcs(pairs, a, tr);
    CommitsOnce(pairs, i);
    assert pairs[i] == (a, tr);
  }

  /** After commits on a network without flow, a residual edge from a
      requirement back to an applicant exists only where that pair was
      committed. */
  lemma ReverseEdgeIsCommitted(c0: TeamCaps, pairs: seq<Assignment>, c: TeamCaps, a: Applicant, tr: TeamRequirement)
    requires Clean(c0) && Committed(c0, pairs, c)
    requires Cap(c, VNode(tr), UNode(a)) > 0
    ensures (a, tr) in pairs
  {
    UnitsOnTeamArcs(pairs, a, tr);
  }

  /** The requirements with a residual edge back to `a` are exactly those
      `a` was committed to. */
  lemma ReverseEdgesOf(c0: TeamCaps, pairs: seq<Assignment>, c: TeamCaps, a: Applicant)
    requires Clean(c0) && Committed(c0, pairs, c)
    ensures forall tr :: Cap(c, VNode(tr), UNode(a)) > 0 ==> (a, tr) in pairs
  {
    forall tr | Cap(c, VNode(tr), UNode(a)) > 0
      ensures (a, tr) in pairs
    {
      ReverseEdgeIsCommitted(c0, pairs, c, a, tr);
    }
  }

  /** A committed applicant is read back with its requirement's skills,
      given the edges its commit left and that no other requirement has an
      edge back to it. */
  lemma ReadBackEntry(pairs: seq<Assignment>, c: TeamCaps, m: map<Applicant, set<string>>, i: nat)
    requires ReadsBack(c, m)
    requires forall i, j :: 0 <= i < j < |pairs| ==> pairs[i].0 != pairs[j].0
    requires i < |pairs|
    requires Cap(c, VNode(pairs[i].1), UNode(pairs[i].0)) > 0 && Cap(c, Sink, VNode(pairs[i].1)) > 0
    requires Cap(c, UNode(pairs[i].0), Source) > 0
    requires forall tr :: Cap(c, VNode(tr), UNode(pairs[i].0)) > 0 ==> (pairs[i].0, tr) in pairs
    ensures pairs[i].0 in m && m[pairs[i].0] == pairs[i].1.skills
  {
    var (a, tr) := pairs[i];
    assert pairs[i] == (a, tr);
    var tr': TeamRequirement :| Cap(c, Sink, VNode(tr')) > 0 && Cap(c, VNode(tr'), UNode(a)) > 0 && m[a] == tr'.skills;
    var k :| 0 <= k < |pairs| && pairs[k] == (a, tr');
    assert k == i;
  }

  /** `m` is exactly the staffing `pairs` commits: no applicant is
      committed twice, each committed applicant is mapped to the skills of
      its requirement, and nobody else is in `m`. */
  predicate RecordsCommits(pairs: seq<Assignment>, m: map<Applicant, set<string>>)
  {
    && (forall i, j :: 0 <= i < j < |pairs| ==> pairs[i].0 != pairs[j].0)
    && (forall i :: 0 <= i < |pairs| ==> pairs[i].0 in m && m[pairs[i].0] == pairs[i].1.skills)
    && (forall a :: a in m ==> exists i :: 0 <= i < |pairs| && pairs[i].0 == a)
  }

  /** Reading back what was committed on a network without flow. */
  lemma ReadBack(c0: TeamCaps, pairs: seq<Assignment>, c: TeamCaps, m: map<Applicant, set<string>>)
    requires Clean(c0) && Committed(c0, pairs, c) && ReadsBack(c, m)
    ensures RecordsCommits(pairs, m)
  {
    CommitsDistinct(c0, pairs, c);
    forall i | 0 <= i < |pairs|
      ensures pairs[i].0 in m && m[pairs[i].0] == pairs[i].1.skills
    {
      CommittedEdges(c0, pairs, c, i);
      ReverseEdgesOf(c0, pairs, c, pairs[i].0);
      ReadBackEntry(pairs, c, m, i);
    }
    forall a | a in m
      ensures exists i :: 0 <= i < |pairs| && pairs[i].0 == a
    {
      var tr: TeamRequirement :| Cap(c, Sink, VNode(tr)) > 0 && Cap(c, VNode(tr), UNode(a)) > 0 && m[a] == tr.skills;
      ReverseEdgeIsCommitted(c0, pairs, c, a, tr);
      var k :| 0 <= k < |pairs| && pairs[k] == (a, tr);
      assert pairs[k].0 == a;
    }
  }

  /** After committing `pairs` on a network without flow, reading the
      assignments back finds exactly the committed applicants, each mapped
      to the skills of the requirement it was committed to; a commit
      sequence that succeeds never names an applicant twice. */
  lemma ReadBackAfterCommits(n: TeamNetwork, pairs: seq<Assignment>, m: map<Applicant, set<string>>)
    requires Clean(n.caps) && Fits(n.caps, pairs)
    requires SetFlowAll(n, pairs).1.Pass?
    requires ReadsBack(SetFlowAll(n, pairs).0.caps, m)
    ensures RecordsCommits(pairs, m)
  {
    var c := SetFlowAll(n, pairs).0.caps;
    assert Committed(n.caps, pairs, c);
    ReadBack(n.caps, pairs, c, m);
  }

  /** Any edit attaches the solver, so a bulk commit afterwards is refused,
      even when the edit itself failed. */
  lemma BulkAfterEditFails(n: TeamNetwork, a: Applicant, tr: TeamRequirement, pairs: seq<Assignment>)
    requires CanCommit(n.caps, a, tr)
    ensures SetFlowBulk(SetFlow(n, a, tr).0, pairs) == (SetFlow(n, a, tr).0, Fail(InvalidState))
  {
  }

  /** A bulk commit attaches the solver, yet a single edit afterwards is
      still accepted whenever the applicant reaches the requirement. */
  lemma EditAfterBulkAllowed(n: TeamNetwork, pairs: seq<Assignment>, a: Applicant, tr: TeamRequirement)
    requires !n.flowSet && Fits(n.caps, pairs)
    ensures SetFlowBulk(n, pairs).0.flowSet
    ensures CanCommit(SetFlowBulk(n, pairs).0.caps, a, tr) && Cap(SetFlowBulk(n, pairs).0.caps, UNode(a), VNode(tr)) > 0 ==>
              SetFlow(SetFlowBulk(n, pairs).0, a, tr).1 == Pass
  {
  }

  /** A successful edit moves exactly one unit along source -> a -> tr ->
      sink: the three forward residuals drop by one, the three reverse ones
      rise by one, and no other pair changes. */
  lemma SetFlowMovesOneUnit(n: TeamNetwork, a: Applicant, tr: TeamRequirement)
    requires CanCommit(n.caps, a, tr) && Cap(n.caps, UNode(a), VNode(tr)) > 0
    ensures var c := SetFlow(n, a, tr).0.caps;
            && Cap(c, Source, UNode(a)) == Cap(n.caps, Source, UNode(a)) - 1
            && Cap(c, UNode(a), VNode(tr)) == Cap(n.caps, UNode(a), VNode(tr)) - 1
            && Cap(c, VNode(tr), Sink) == Cap(n.caps, VNode(tr), Sink) - 1
            && Cap(c, UNode(a), Source) == Cap(n.caps, UNode(a), Source) + 1
            && Cap(c, VNode(tr), UNode(a)) == Cap(n.caps, VNode(tr), UNode(a)) + 1
            && Cap(c, Sink, VNode(tr)) == Cap(n.caps, Sink, VNode(tr)) + 1
    ensures var c := SetFlow(n, a, tr).0.caps;
            forall x, y :: Uses(a, tr, x, y) == 0 && Uses(a, tr, y, x) == 0 ==> Cap(c, x, y) == Cap(n.caps, x, y)
  {
  }

  /** Edits only move flow: a single edit, passing or failing, leaves the
      total of every arc and its reverse as it was. */
  lemma SetFlowKeepsArcs(n: TeamNetwork, a: Applicant, tr: TeamRequirement)
    requires CanCommit(n.caps, a, tr)
    ensures SameArcs(n.caps, SetFlow(n, a, tr).0.caps)
  {
  }

  /** So does a bulk commit, including the commits a failing one keeps. */
  lemma SetFlowBulkKeepsArcs(n: TeamNetwork, pairs: seq<Assignment>)
    requires !n.flowSet ==> Fits(n.caps, pairs)
    ensures SameArcs(n.caps, SetFlowBulk(n, pairs).0.caps)
  {
  }

  /** Before any flow is set the flow value cannot be read; after a bulk
      commit on a new network it is the number of commits. */
  lemma FlowAmountAfterBulk(n: TeamNetwork, pairs: seq<Assignment>)
    requires !n.flowSet && n.amount == 0 && Fits(n.caps, pairs)
    requires SetFlowBulk(n, pairs).1.Pass?
    ensures GetFlowAmount(n) == Failure(InvalidState)
    ensures GetFlowAmount(SetFlowBulk(n, pairs).0) == Success(|pairs|)
  {
  }
}
